=== FILE: README.md ===
# Huffman file compressor: a Dafny model of the codec

This project models the codec of a browser-side Huffman text compressor:

- `HuffmanTree` counts the symbols of a text and builds a Huffman tree by repeated stable sorting and merging. It derives a prefix-code table from the tree. It encodes the text to a bit string and packs that bit string into bytes. It also unpacks and decodes bytes, and writes and reads the tree as comma-separated text.
- `HuffmanCompressor` frames the file extension, the tree text and the packed payload into one byte buffer with little-endian 32-bit length prefixes, and takes such a buffer apart again.

Both revisions of the code are modelled:

- the current one (`src/app/scripts/HuffmanCompressor/`);
- the earlier copy (`src/app/`). That copy has a two-part container without the extension, a merge loop with an `if (left && right)` guard, and a decoder that reports every failure as one error.

Everything is pure functions over immutable values:

- symbols are UTF-16 code units (`Sym`, 0..0xFFFF);
- a tree is `Nil | Node(ch, freq, left, right)`, mirroring `HuffmanNode | null`;
- the frequency map is an insertion-ordered list of entries;
- `Array.prototype.sort` is a stable insertion sort, proved to be the only stable sort;
- the code table is a map built by the same depth-first walk;
- bits and bytes are bounded integers;
- errors are a `Result` with one constructor per failure: `NoCode`, `NoRoot`, `InvalidEncoding`, `BadFrequency`, `OutOfBounds`.

The modules follow the source:

| module | models |
|---|---|
| `Nodes` | the node record |
| `Frequencies` | `getFrequencies` and `createNodes` |
| `StableSort` | the comparator sort |
| `TreeBuilder` | `buildHuffmanTree` |
| `PrefixCodes` | `generatePrefixCodes` |
| `Coding` | `encode`, `encodeChar` and `decodeBits` |
| `BitPacking` | `getByteValues` and `getBitValues` |
| `TreeSerializer` | `serialize` and `deserialize` |
| `HuffmanTree` | the class itself |
| `Container` | the byte layout |
| `Compressor` | `compress` and `decompress` |
| `Example` | the text `"aaab"` worked end to end |

The packing defect is modelled as written. When the code bits do not fill whole bytes, the last group comes back behind zeros, so the round trip is exact when the bit length is a multiple of 8. Otherwise the decoder reads `Padded` bits, which in general change the text: `Example.AaabRoundTrip` shows that `"aaab"` comes back as `"bbbbaaab"`. Some texts still come back intact, because the inserted zeros can happen to decode as a partial path that is dropped.

Three behaviours of the code worth noting:

- For `"aaab"` the lighter `b` is sorted first, becomes the left child and gets code `0`; `a` gets `1`. It is not the other way round.
- A tree length field that claims more bytes than the buffer holds is not rejected. `slice` clamps, giving a truncated tree text and an empty payload.
- An exhausted token list during deserialization yields an empty tree, not an error.

## Model

| member | source | states |
|---|---|---|
| Nodes.MakeNode | src/app/scripts/HuffmanCompressor/HuffmanNode.ts:7-17 | the constructor stores symbol and frequency as given; children default to null and explicit children are stored as given |
| Nodes.MakeNodeEarlier | src/app/HuffmanNode.ts:7-12 | the earlier constructor stores symbol and frequency; both children are null after construction |
| Nodes.SetChildren | src/app/HuffmanTree.ts:64-67 | assigning `left`/`right` afterwards changes only the children |
| Nodes.EarlierConstructionAgrees | src/app/HuffmanNode.ts:1-13 | constructing the earlier way then assigning children gives the node the current constructor builds |
| Nodes.ShapeNotEnforced | src/app/scripts/HuffmanCompressor/HuffmanNode.ts:1-18 | the record admits a leaf with a child and an internal node with one child; the strict shape `Full` is a separate property |
| Frequencies.Bump | src/app/scripts/HuffmanCompressor/HuffmanTree.ts:25 | `frequencies.set(char, (get(char) or 0) + 1)`: a known symbol's count rises by one in place, others are untouched, a new symbol is appended with count 1 |
| Frequencies.TallyCorrect | src/app/scripts/HuffmanCompressor/HuffmanTree.ts:22-28 | the table has exactly one entry per distinct symbol of the text; each count is that symbol's number of occurrences (at least 1); entries are in first-occurrence order; the counts sum to the text length |
| Frequencies.Leaves | src/app/scripts/HuffmanCompressor/HuffmanTree.ts:30-36 | `createNodes` makes the i-th node a childless leaf carrying the i-th entry's symbol and count |
| Frequencies.InitialNodesCorrect | src/app/scripts/HuffmanCompressor/HuffmanTree.ts:22-36 | the initial nodes are childless leaves, one per distinct symbol of the text, weighted by occurrence count, in first-occurrence order; none for the empty text |
| StableSort.Sort | src/app/scripts/HuffmanCompressor/HuffmanTree.ts:40 | the sort returns a permutation of its input, ascending by frequency, keeping the relative order of equal-frequency nodes |
| StableSort.StableSortIsUnique | src/app/scripts/HuffmanCompressor/HuffmanTree.ts:40 | two lists that are both ascending and stable permutations of each other are equal, so the tree shape does not depend on which stable sort the engine uses |
| StableSort.SortIsTheStableSort | src/app/scripts/HuffmanCompressor/HuffmanTree.ts:40 | any ascending stable sort of a list returns `Sort` of it |
| TreeBuilder.Merge | src/app/scripts/HuffmanCompressor/HuffmanTree.ts:39-50 | one loop iteration shrinks the list by exactly one |
| TreeBuilder.MergeStep | src/app/scripts/HuffmanCompressor/HuffmanTree.ts:39-50 | the pushed parent has no symbol and the sum of its children's frequencies; left and right are the first two nodes of the stably sorted list, in that order; left is no heavier than right, which is no heavier than any node kept; the kept nodes are the rest of the stably sorted list |
| TreeBuilder.MergeKeeps | src/app/scripts/HuffmanCompressor/HuffmanTree.ts:39-50 | one iteration keeps the total weight and the multiset of leaf symbols |
| TreeBuilder.BuildKeeps | src/app/scripts/HuffmanCompressor/HuffmanTree.ts:38-52 | merging until one node is left keeps every node well built, returns the total weight and all leaf symbols, and gives an internal root for two or more nodes |
| TreeBuilder.BuildTreeCorrect | src/app/scripts/HuffmanCompressor/HuffmanTree.ts:15-52 | the built tree is null for the empty text; otherwise it is full, its frequencies are occurrence counts and sums, its root weight is the text length, and its leaves are exactly the distinct symbols, once each; one distinct symbol gives a lone leaf as the root; two or more give an internal root |
| TreeBuilder.BuildEarlierAgrees | src/app/HuffmanTree.ts:54-78 | inside the earlier loop the list has two or more nodes, so the `left && right` guard always holds and the earlier builder returns the same tree |
| PrefixCodes.CodesKeys | src/app/scripts/HuffmanCompressor/HuffmanTree.ts:54-63 | the walk adds exactly the symbols of the tree's symbol-carrying nodes to the table and leaves other entries alone |
| PrefixCodes.CodeTableIsPaths | src/app/scripts/HuffmanCompressor/HuffmanTree.ts:54-63 | the table has a code for exactly the tree's leaf symbols, and each code is a root-to-leaf path (0 left, 1 right) through symbol-less nodes ending at that symbol |
| PrefixCodes.ReachesPrefixFree | src/app/scripts/HuffmanCompressor/HuffmanTree.ts:54-63 | a path to one leaf cannot be a proper prefix of a path to another |
| PrefixCodes.CodeTableIsPrefixFree | src/app/HuffmanTree.ts:80-89 | for a tree with an internal root every code is non-empty and no symbol's code is a prefix of another symbol's |
| PrefixCodes.LoneLeafHasEmptyCode | src/app/scripts/HuffmanCompressor/HuffmanTree.ts:56-57 | a lone leaf as the root gets the empty code |
| Coding.EncodeSymbol | src/app/scripts/HuffmanCompressor/HuffmanTree.ts:77-83 | succeeds exactly when the symbol has a non-empty code, returning it; a missing or empty code fails naming the symbol |
| Coding.Encode | src/app/scripts/HuffmanCompressor/HuffmanTree.ts:70-75 | succeeds exactly when every symbol of the text has a non-empty code; a failure names a symbol of the text without one |
| Coding.EncodeAppend | src/app/scripts/HuffmanCompressor/HuffmanTree.ts:70-75 | the encoding of a concatenation is the concatenation of the encodings |
| Coding.EncodeWithEmptyCode | src/app/HuffmanTree.ts:108-114 | with only an empty code in the table every non-empty text fails on its first symbol |
| Coding.Walk | src/app/scripts/HuffmanCompressor/HuffmanTree.ts:105-117 | the walk emits at most one symbol per bit and fails only with a null root or a missing child |
| Coding.WalkCodeword | src/app/scripts/HuffmanCompressor/HuffmanTree.ts:108-114 | following one code from the root consumes exactly that code, emits its symbol and resets to the root |
| Coding.DecodeInvertsEncode | src/app/scripts/HuffmanCompressor/HuffmanTree.ts:70-117 | decoding a successful encoding with the same tree returns the text |
| Coding.DecodeDropsPartialPath | src/app/scripts/HuffmanCompressor/HuffmanTree.ts:105-117 | bits that end part-way down the tree after the codes are dropped silently |
| Coding.DecodeFullNeverFails | src/app/scripts/HuffmanCompressor/HuffmanTree.ts:105-117 | on a full tree with an internal root, decoding never fails |
| Coding.DecodeErrors | src/app/scripts/HuffmanCompressor/HuffmanTree.ts:109-110 | a null root fails on any bit; a lone leaf root has no child and fails on any bit |
| Coding.DecodeEarlierAgrees | src/app/HuffmanTree.ts:142-167 | the earlier optional-chaining walk succeeds exactly when the current one does, with the same result; every failure is "invalid encoding" |
| BitPacking.Value | src/app/scripts/HuffmanCompressor/HuffmanTree.ts:89 | `parseInt(group, 2)` of n bits is below 2^n |
| BitPacking.Pack | src/app/scripts/HuffmanCompressor/HuffmanTree.ts:85-92 | packing n bits gives ceil(n/8) bytes |
| BitPacking.UnpackLength | src/app/scripts/HuffmanCompressor/HuffmanTree.ts:99-103 | unpacking gives exactly 8 bits per byte |
| BitPacking.BinaryIsFixed | src/app/scripts/HuffmanCompressor/HuffmanTree.ts:101 | `toString(2)` is the fixed-width big-endian rendering at its own length |
| BitPacking.ByteBitsIsFixed | src/app/scripts/HuffmanCompressor/HuffmanTree.ts:100-102 | `toString(2).padStart(8, "0")` is the 8-bit big-endian rendering of the byte |
| BitPacking.GroupRoundTrip | src/app/scripts/HuffmanCompressor/HuffmanTree.ts:85-103 | a group of 1 to 8 bits packs to a byte that unpacks to `8 - k` zeros followed by the group |
| BitPacking.UnpackPackPadded | src/app/scripts/HuffmanCompressor/HuffmanTree.ts:85-103 | unpacking what was packed gives `Padded` of the bits: full groups unchanged, the short last group behind zeros |
| BitPacking.UnpackPack | src/app/HuffmanTree.ts:117-140 | the pack/unpack round trip is exact when the bit count is a multiple of 8; otherwise the last k bits come back behind `8 - k` zeros |
| BitPacking.PackUnpack | src/app/scripts/HuffmanCompressor/HuffmanTree.ts:85-103 | packing what was unpacked returns the bytes |
| TreeSerializer.DecimalValue | src/app/scripts/HuffmanCompressor/HuffmanTree.ts:135 | `parseInt` of the decimal rendering of a natural number is that number |
| TreeSerializer.SerializeNode | src/app/scripts/HuffmanCompressor/HuffmanTree.ts:119-128 | the tree text consists only of digits, commas, `#` and the letters of `null` |
| TreeSerializer.SplitJoin | src/app/scripts/HuffmanCompressor/HuffmanTree.ts:150 | splitting `a,b` at commas gives the fields of `a` followed by those of `b` |
| TreeSerializer.TokenizeSerialize | src/app/scripts/HuffmanCompressor/HuffmanTree.ts:119-150 | splitting and classifying a tree's text gives its pre-order tokens: symbol code or `#`, frequency, left, right, `null` for absent |
| TreeSerializer.Parse | src/app/scripts/HuffmanCompressor/HuffmanTree.ts:131-148 | the parse leaves no more tokens than it was given and fails only on a bad frequency |
| TreeSerializer.ParseConsumesPrefix | src/app/scripts/HuffmanCompressor/HuffmanTree.ts:131-148 | what a successful parse leaves over is a suffix of its input: the parse consumes a prefix of the tokens |
| TreeSerializer.ParseTokens | src/app/scripts/HuffmanCompressor/HuffmanTree.ts:131-148 | parsing any tree's tokens followed by any extra tokens returns that tree and leaves the extras unconsumed |
| TreeSerializer.ParseLeniency | src/app/scripts/HuffmanCompressor/HuffmanTree.ts:132-137 | no tokens gives null; a `null` token gives null and consumes one token; a missing or non-numeric frequency fails |
| TreeSerializer.DeserializeSerialize | src/app/HuffmanTree.ts:170-227 | every tree, of any shape, is read back from its own text |
| TreeSerializer.DeserializeEdgeCases | src/app/scripts/HuffmanCompressor/HuffmanTree.ts:130-155 | the text `null` reads as the empty tree; the empty text fails for lack of a frequency |
| HuffmanTree.FromTextTable | src/app/scripts/HuffmanCompressor/HuffmanTree.ts:8-20 | the constructor's table is the one generated from its root and has a code for exactly the symbols of the text |
| HuffmanTree.FromTextEarlierAgrees | src/app/HuffmanTree.ts:8-78 | the earlier constructor builds the same root and table; its `frequencies.forEach` node creation is shared with the current revision (`InitialNodes`, insertion order) rather than modelled separately |
| HuffmanTree.CompressedText | src/app/scripts/HuffmanCompressor/HuffmanTree.ts:65-68 | compression succeeds exactly when encoding does, and its bytes unpack to `Padded` of the code bits |
| HuffmanTree.DecompressBytes | src/app/scripts/HuffmanCompressor/HuffmanTree.ts:94-97 | decompression yields at most 8 symbols per byte and fails only with a null root or a missing child |
| HuffmanTree.DecompressBytesEarlier | src/app/HuffmanTree.ts:127-130 | the earlier decompression fails only with "invalid encoding" |
| HuffmanTree.Deserialize | src/app/scripts/HuffmanCompressor/HuffmanTree.ts:150-154 | a deserialized coder's table is regenerated from its root; the only failure is a bad frequency |
| HuffmanTree.SerializeRoundTrip | src/app/scripts/HuffmanCompressor/HuffmanTree.ts:119-155 | a coder whose table is generated from its root is restored exactly by deserializing its serialization, table included |
| HuffmanTree.ManySymbolsEntries | src/app/scripts/HuffmanCompressor/HuffmanTree.ts:22-36 | the text has two different symbols exactly when the frequency table has two or more entries |
| HuffmanTree.EncodeSucceeds | src/app/scripts/HuffmanCompressor/HuffmanTree.ts:65-83 | with two or more distinct symbols encoding succeeds and yields at least one bit per symbol |
| HuffmanTree.SingleSymbolFails | src/app/scripts/HuffmanCompressor/HuffmanTree.ts:77-83 | a text of one repeated symbol builds a lone leaf of weight equal to the text length as its root, and compression fails on its first symbol |
| HuffmanTree.EmptyText | src/app/scripts/HuffmanCompressor/HuffmanTree.ts:8-13 | the empty text builds no tree and compresses to no bytes; no bytes decompress to the empty text |
| HuffmanTree.CodecRoundTrip | src/app/scripts/HuffmanCompressor/HuffmanTree.ts:65-117 | with two or more distinct symbols and a bit count that is a multiple of 8, decompressing the compressed bytes returns the text |
| HuffmanTree.CodecPadding | src/app/scripts/HuffmanCompressor/HuffmanTree.ts:85-117 | otherwise the decoder reads `Padded` of the code bits: the last short group of k bits moved behind 8 - k zeros |
| Container.U32LE | src/app/scripts/HuffmanCompressor/HuffmanCompressor.ts:26 | `setUint32(_, n, true)` writes four bytes whose little-endian value is n modulo 2^32 |
| Container.ReadU32 | src/app/scripts/HuffmanCompressor/HuffmanCompressor.ts:51-54 | `getUint32(off, true)` succeeds exactly when four bytes exist at the offset, returns a value below 2^32, and otherwise fails with that offset |
| Container.Slice | src/app/scripts/HuffmanCompressor/HuffmanCompressor.ts:58 | `slice` clamps both ends: the bytes from `from` up to `to` or the end, and nothing for an empty or past-the-end range |
| Container.Frame | src/app/scripts/HuffmanCompressor/HuffmanCompressor.ts:17-43 | the buffer has length 8 plus the lengths of extension, tree text and payload and starts with the extension length |
| Container.Unframe | src/app/scripts/HuffmanCompressor/HuffmanCompressor.ts:50-83 | unframing succeeds exactly when both length fields are in the buffer, else fails at the offending offset; the parts fill the buffer; an overclaiming tree length yields the rest as the tree text and an empty payload |
| Container.FrameLayout | src/app/scripts/HuffmanCompressor/HuffmanCompressor.ts:17-43 | the buffer is laid out as `[extLen u32 LE][ext][treeLen u32 LE][tree][payload]`: each part sits right after its length field, and the payload is every byte after the tree |
| Container.UnframeLayout | src/app/scripts/HuffmanCompressor/HuffmanCompressor.ts:50-83 | a successful unframe reads the extension right after the first length field, the tree right after the second with its length clamped to what is left, and the payload as every byte after `8 + extLen + treeLen` |
| Container.FrameRoundTrip | src/app/scripts/HuffmanCompressor/HuffmanCompressor.ts:21-83 | unframing a framed buffer returns extension, tree text and payload unchanged while both lengths are below 2^32 |
| Container.FrameEarlier | src/app/HuffmanCompressor.ts:20-29 | the earlier buffer has length 4 plus the lengths of tree text and payload and starts with the tree length |
| Container.UnframeEarlier | src/app/HuffmanCompressor.ts:35-48 | earlier unframing fails only on a buffer shorter than 4 bytes, and the parts fill the buffer |
| Container.FrameEarlierLayout | src/app/HuffmanCompressor.ts:20-29 | the earlier buffer is laid out as `[treeLen u32 LE][tree][payload]` |
| Container.UnframeEarlierLayout | src/app/HuffmanCompressor.ts:35-48 | a successful earlier unframe reads a tree of the clamped length (`treeLen` or, if smaller, the buffer length minus 4) right after the length field, and the payload as every byte after it |
| Container.FrameEarlierRoundTrip | src/app/HuffmanCompressor.ts:21-48 | earlier unframing inverts earlier framing for any payload and a tree text shorter than 2^32 |
| Compressor.Compress | src/app/scripts/HuffmanCompressor/HuffmanCompressor.ts:4-44 | `compress` succeeds exactly when the text's own coder can encode it, and the buffer begins with the extension length |
| Compressor.Decompress | src/app/scripts/HuffmanCompressor/HuffmanCompressor.ts:46-90 | a successful `decompress` returns the framed extension bytes; failures are a short buffer, a bad frequency, a null root or an invalid encoding |
| Compressor.CompressEarlier | src/app/HuffmanCompressor.ts:4-30 | the earlier `compress` succeeds exactly when its coder can encode the text |
| Compressor.DecompressEarlier | src/app/HuffmanCompressor.ts:32-55 | the earlier `decompress` returns only a text; failures are a short buffer, a bad frequency or an invalid encoding |
| Compressor.CompressParts | src/app/scripts/HuffmanCompressor/HuffmanCompressor.ts:7-41 | the compressed buffer unframes to the extension, the serialized tree and the packed payload, and the tree text deserializes to the compressing coder |
| Compressor.DecompressCompressed | src/app/scripts/HuffmanCompressor/HuffmanCompressor.ts:46-90 | decompressing a compressed buffer decodes its payload with the coder built from the text |
| Compressor.RoundTrip | src/app/scripts/HuffmanCompressor/HuffmanCompressor.ts:4-90 | for two or more distinct symbols, a bit count that is a multiple of 8 and lengths below 2^32, decompress(compress(t, e)) returns t and e |
| Compressor.PaddedRoundTrip | src/app/scripts/HuffmanCompressor/HuffmanCompressor.ts:4-90 | in general decompress(compress(t, e)) decodes `Padded` of the code bits and returns e |
| Compressor.EmptyRoundTrip | src/app/scripts/HuffmanCompressor/HuffmanCompressor.ts:4-90 | the empty text compresses to the `null` tree and no payload, and decompresses to the empty text and the extension |
| Compressor.SingleSymbolRejected | src/app/HuffmanCompressor.ts:4-11 | a text of one repeated symbol makes both revisions' `compress` fail on that symbol |
| Compressor.ShortBufferRejected | src/app/scripts/HuffmanCompressor/HuffmanCompressor.ts:51-54 | a buffer shorter than 4 bytes makes both revisions' `decompress` fail at offset 0 |
| Compressor.EarlierRoundTrip | src/app/HuffmanCompressor.ts:4-55 | the earlier pipeline round-trips under the same conditions |
| Example.AaabBuild | src/app/scripts/HuffmanCompressor/HuffmanTree.ts:38-52 | for `"aaab"` the lighter `b` becomes the left child of the root |
| Example.AaabCoder | src/app/scripts/HuffmanCompressor/HuffmanTree.ts:54-63 | for `"aaab"` the codes are `b` = 0 and `a` = 1 |
| Example.AaabBits | src/app/scripts/HuffmanCompressor/HuffmanTree.ts:70-103 | `"aaab"` encodes to 1110, packs to the byte 14, which unpacks to 00001110 |
| Example.AaabDecode | src/app/scripts/HuffmanCompressor/HuffmanTree.ts:105-117 | 00001110 decodes to `"bbbbaaab"` |
| Example.AaabRoundTrip | src/app/scripts/HuffmanCompressor/HuffmanCompressor.ts:4-90 | both revisions compress `"aaab"` into a buffer that decompresses to `"bbbbaaab"` |

## Left out

- UTF-8 `TextEncoder`/`TextDecoder` are not modelled. The tree text is ASCII, so its bytes are its characters. The extension is carried as opaque bytes.
- Text containing a surrogate pair (a high surrogate 0xD800-0xDBFF followed by a low surrogate 0xDC00-0xDFFF) is outside the model. `for..of` counts such a pair as one code point, while `split("")`, `charCodeAt` and `fromCharCode` see two code units. Symbols here are single code units, so on such text the model's results do not match the source. For `[0xD800, 0xDC00]`, for example, `Compressor.Compress` succeeds in the model, but the source builds a lone leaf for the pair and then throws in `encodeChar`. `Frequencies.TallyCorrect`, `HuffmanTree.EncodeSucceeds`, `Compressor.RoundTrip` and the other round trips describe the source only for texts without a surrogate pair.
- `parseInt` leniency is not modelled. A field is a number only when it is all decimal digits, so `"12x"`, a leading sign or whitespace, and JavaScript doubles are out. A non-numeric symbol field maps to code 0, and a symbol code wraps to 16 bits, as `fromCharCode` does.
- TreeSerializer.Parse: rejects a frequency field that is not all digits, such as `"12x"`, which `parseInt` would read as 12; this follows from the `parseInt` simplification above.
- A leading UTF-8 byte-order mark, which `TextDecoder` strips from the tree text, is not modelled.
- `DataView` over `combinedData.buffer` ignores a view's byte offset. Buffers are modelled as starting at offset 0.
- `console.log` diagnostics are left out.
- The React page that reads and saves files is left out.
- The constructor's stored `extension` field is never read by the codec, so it is not part of `Coder`.
- Huffman optimality, minimal weighted code length, is neither promised by the code nor proved here.
- Exception classes and message texts are reduced to the constructors of `Error`.
- Stack depth is not modelled. `serializeNode`, `deserializeNode` and `generatePrefixCodes` recurse once per tree level, and on a deeply nested tree text JavaScript throws a `RangeError` where `TreeSerializer.Parse` and the other recursive functions here succeed.
- Compressor.RoundTrip: requires the serialized tree and the extension to be shorter than 2^32 bytes; longer lengths wrap in `setUint32` (stated by `Container.U32LE`).

=== FILE: basics.dfy ===
/** Scalar types and the failure-compatible result type shared by the codec. */
module Basics {

  /** One UTF-16 code unit: what `charCodeAt` returns and `String.fromCharCode` accepts. */
  type Sym = c: int | 0 <= c < 0x1_0000

  /** One element of a `Uint8Array`. */
  type Byte = b: int | 0 <= b < 0x100

  /** One character of the `"0"`/`"1"` strings the codec builds. */
  type Bit = b: int | 0 <= b < 2

  datatype Option<+T> = None | Some(value: T)

  /** The distinct ways the codec can throw. */
  datatype Error =
    | NoCode(sym: Sym)         // encodeChar: the symbol has no code, or an empty one
    | NoRoot                   // decodeBits on a null root (a TypeError in the current revision)
    | InvalidEncoding          // decodeBits: the current node lacks the child the next bit asks for
    | BadFrequency             // deserializeNode: frequency token missing or not numeric
    | OutOfBounds(offset: nat) // DataView.getUint32 reading past the end of the buffer

  datatype Result<+T> = Ok(value: T) | Err(error: Error) {

    predicate IsFailure() {
      Err?
    }

    function PropagateFailure<U>(): Result<U>
      requires Err?
    {
      Err(error)
    }

    function Extract(): T
      requires Ok?
    {
      value
    }
  }

  predicate Distinct<T(==)>(s: seq<T>) {
    forall i, j :: 0 <= i < j < |s| ==> s[i] != s[j]
  }

  /** Index of the first occurrence of `c` in `s`, or `|s|` when there is none. */
  function FirstIndex<T(==)>(s: seq<T>, c: T): (i: nat)
    ensures i <= |s|
    ensures i < |s| <==> c in s
    ensures i < |s| ==> s[i] == c
  {
    if s == [] then 0 else if s[0] == c then 0 else 1 + FirstIndex(s[1..], c)
  }

  function Min(a: int, b: int): int {
    if a <= b then a else b
  }
}

=== FILE: bit_packing.dfy ===
/**
 * `getByteValues` and `getBitValues`: cutting the code string into 8-bit
 * groups stored as `parseInt(group, 2)`, and expanding every byte back into
 * exactly 8 zero-padded bits.
 */
module BitPacking {
  import opened Basics

  function Pow2(n: nat): (r: nat)
    ensures r >= 1
  {
    if n == 0 then 1 else 2 * Pow2(n - 1)
  }

  function Zeros(n: nat): (z: seq<Bit>)
    ensures |z| == n
    ensures forall i :: 0 <= i < n ==> z[i] == 0
  {
    if n == 0 then [] else [0] + Zeros(n - 1)
  }

  /** `parseInt(bits, 2)`: the most significant bit comes first. */
  function Value(bits: seq<Bit>): (v: nat)
    ensures v < Pow2(|bits|)
  {
    if bits == [] then 0 else 2 * Value(bits[..|bits| - 1]) + bits[|bits| - 1]
  }

  /** `n` bits of `v`, most significant first. */
  function Fixed(v: nat, n: nat): (bits: seq<Bit>)
    ensures |bits| == n
  {
    if n == 0 then [] else Fixed(v / 2, n - 1) + [v % 2]
  }

  /** `v.toString(2)`: binary digits without leading zeros, `"0"` for zero. */
  function Binary(v: nat): (bits: seq<Bit>)
    ensures |bits| >= 1
  {
    if v < 2 then [v] else Binary(v / 2) + [v % 2]
  }

  /** `s.padStart(width, "0")`. */
  function PadStart(s: seq<Bit>, width: nat): seq<Bit> {
    if |s| >= width then s else Zeros(width - |s|) + s
  }

  /** `getByteValues`: slices of 8 from the front; the last may be shorter. */
  function Pack(bits: seq<Bit>): (bytes: seq<Byte>)
    ensures |bytes| == (|bits| + 7) / 8
    decreases |bits|
  {
    if bits == [] then []
    else
      var n := Min(8, |bits|);
      assert Pow2(n) <= 256 by { Pow2Mono(n, 8); }
      [Value(bits[..n])] + Pack(bits[n..])
  }

  /** `byte.toString(2).padStart(8, "0")`. */
  function ByteBits(b: Byte): seq<Bit> {
    PadStart(Binary(b), 8)
  }

  /** `getBitValues`: every byte becomes exactly 8 bits. */
  function Unpack(bytes: seq<Byte>): seq<Bit> {
    if bytes == [] then [] else ByteBits(bytes[0]) + Unpack(bytes[1..])
  }

  lemma {:induction false} Pow2Mono(a: nat, b: nat)
    requires a <= b
    ensures Pow2(a) <= Pow2(b)
    decreases b
  {
    if a < b {
      Pow2Mono(a, b - 1);
    }
  }

  lemma {:induction false} FixedOfValue(bits: seq<Bit>)
    ensures Fixed(Value(bits), |bits|) == bits
    decreases |bits|
  {
    if bits != [] {
      var init := bits[..|bits| - 1];
      FixedOfValue(init);
      assert Value(bits) / 2 == Value(init);
      assert Value(bits) % 2 == bits[|bits| - 1];
      assert bits == init + [bits[|bits| - 1]];
    }
  }

  lemma {:induction false} ValueOfFixed(v: nat, n: nat)
    requires v < Pow2(n)
    ensures Value(Fixed(v, n)) == v
    decreases n
  {
    if n > 0 {
      ValueOfFixed(v / 2, n - 1);
      var f := Fixed(v, n);
      assert f[..n - 1] == Fixed(v / 2, n - 1);
    }
  }

  lemma {:induction false} FixedZero(m: nat)
    ensures Fixed(0, m) == Zeros(m)
    decreases m
  {
    if m > 0 {
      FixedZero(m - 1);
      assert Zeros(m) == Zeros(m - 1) + [0];
    }
  }

  /** Widening a fixed-width rendering adds leading zeros. */
  lemma {:induction false} FixedWiden(v: nat, n: nat, m: nat)
    requires v < Pow2(n)
    ensures Fixed(v, n + m) == Zeros(m) + Fixed(v, n)
    decreases n
  {
    if n == 0 {
      FixedZero(m);
    } else {
      FixedWiden(v / 2, n - 1, m);
      assert n + m - 1 == (n - 1) + m;
    }
  }

  lemma {:induction false} BinaryIsFixed(v: nat)
    ensures Binary(v) == Fixed(v, |Binary(v)|)
    ensures v < Pow2(|Binary(v)|)
    decreases v
  {
    if v >= 2 {
      BinaryIsFixed(v / 2);
    }
  }

  lemma {:induction false} BinaryLength(v: nat, k: nat)
    requires 1 <= k && v < Pow2(k)
    ensures |Binary(v)| <= k
    decreases k
  {
    if v >= 2 {
      BinaryLength(v / 2, k - 1);
    }
  }

  /** `toString(2).padStart(8, "0")` is the 8-bit big-endian rendering of the byte. */
  lemma {:induction false} ByteBitsIsFixed(b: Byte)
    ensures ByteBits(b) == Fixed(b, 8)
  {
    var s := Binary(b);
    BinaryIsFixed(b);
    Pow2Eight();
    BinaryLength(b, 8);
    FixedWiden(b, |s|, 8 - |s|);
  }

  lemma {:induction false} ValueBelow256(g: seq<Bit>)
    requires |g| <= 8
    ensures Value(g) < 256
  {
    Pow2Mono(|g|, 8);
    Pow2Eight();
  }

  lemma {:induction false} ZerosAppend(m: nat, n: nat)
    ensures Zeros(m) + Zeros(n) == Zeros(m + n)
  {
    var z := Zeros(m) + Zeros(n);
    assert forall i :: 0 <= i < m + n ==> z[i] == 0;
  }

  /** A group is its value's binary digits behind leading zeros. */
  lemma {:induction false} GroupDigits(g: seq<Bit>)
    requires 1 <= |g| <= 8
    ensures Value(g) < 256
    ensures |Binary(Value(g))| <= |g|
    ensures g == Zeros(|g| - |Binary(Value(g))|) + Binary(Value(g))
  {
    ValueBelow256(g);
    var v := Value(g);
    var b := Binary(v);
    assert |b| <= |g| && b == Fixed(v, |b|) && v < Pow2(|b|) by {
      BinaryIsFixed(v);
      BinaryLength(v, |g|);
    }
    var w := |g| - |b|;
    assert Fixed(v, |g|) == g by {
      FixedOfValue(g);
    }
    assert Fixed(v, |b| + w) == Zeros(w) + b by {
      FixedWiden(v, |b|, w);
    }
    assert |b| + w == |g|;
  }

  lemma {:induction false} PadStartJoin(b: seq<Bit>, g: seq<Bit>)
    requires |b| <= |g| <= 8
    requires g == Zeros(|g| - |b|) + b
    ensures PadStart(b, 8) == Zeros(8 - |g|) + g
  {
    var w := |g| - |b|;
    ZerosAppend(8 - |g|, w);
    assert Zeros(8 - |g|) + (Zeros(w) + b) == (Zeros(8 - |g|) + Zeros(w)) + b;
    assert Zeros(0) + b == b;
  }

  /** A group of at most 8 bits comes back from its byte with `8 - |g|` zeros in front. */
  lemma {:induction false} GroupRoundTrip(g: seq<Bit>)
    requires 1 <= |g| <= 8
    ensures Value(g) < 256
    ensures ByteBits(Value(g)) == Zeros(8 - |g|) + g
  {
    GroupDigits(g);
    PadStartJoin(Binary(Value(g)), g);
  }

  lemma {:induction false} Pow2Eight()
    ensures Pow2(8) == 256
  {
  }

  /** Every byte expands to exactly 8 bits. */
  lemma {:induction false} UnpackLength(bytes: seq<Byte>)
    ensures |Unpack(bytes)| == 8 * |bytes|
    decreases |bytes|
  {
    if bytes != [] {
      UnpackLength(bytes[1..]);
      ByteBitsIsFixed(bytes[0]);
    }
  }

  /**
   * What unpacking gives back for `bits`: the bits themselves when their
   * number is a multiple of 8, otherwise the short last group of `k` bits
   * moved behind `8 - k` zeros.
   */
  function Padded(bits: seq<Bit>): seq<Bit> {
    var k := |bits| % 8;
    if k == 0 then bits else bits[..|bits| - k] + Zeros(8 - k) + bits[|bits| - k..]
  }

  lemma {:induction false} ModDropEight(n: nat)
    requires n >= 8
    ensures (n - 8) % 8 == n % 8
  {
  }

  lemma {:induction false} PaddedCons(bits: seq<Bit>)
    requires |bits| > 8
    ensures Padded(bits) == bits[..8] + Padded(bits[8..])
  {
    var h, rest := bits[..8], bits[8..];
    var k := |bits| % 8;
    ModDropEight(|bits|);
    assert bits == h + rest;
    if k != 0 {
      var j := |rest| - k;
      PaddedShortGroup(bits, k);
      PaddedShortGroup(rest, k);
      JoinAround(h, rest, j, Zeros(8 - k));
    }
  }

  lemma {:induction false} PaddedShortGroup(bits: seq<Bit>, k: nat)
    requires 0 < k && k == |bits| % 8
    ensures Padded(bits) == bits[..|bits| - k] + Zeros(8 - k) + bits[|bits| - k..]
  {
  }

  /** Cutting `h + rest` inside `rest` and putting `z` in the cut. */
  lemma {:induction false} JoinAround(h: seq<Bit>, rest: seq<Bit>, j: nat, z: seq<Bit>)
    requires j <= |rest|
    ensures (h + rest)[..|h| + j] + z + (h + rest)[|h| + j..] == h + (rest[..j] + z + rest[j..])
  {
    assert (h + rest)[..|h| + j] == h + rest[..j];
    assert (h + rest)[|h| + j..] == rest[j..];
  }

  lemma {:induction false} PackFront(bits: seq<Bit>)
    requires bits != []
    ensures var n := Min(8, |bits|);
      Value(bits[..n]) < 256 &&
      Unpack(Pack(bits)) == ByteBits(Value(bits[..n])) + Unpack(Pack(bits[n..]))
  {
    var n := Min(8, |bits|);
    GroupRoundTrip(bits[..n]);
    assert Pack(bits) == [Value(bits[..n])] + Pack(bits[n..]);
  }

  lemma {:induction false} ModSmall(n: nat)
    requires n < 8
    ensures n % 8 == n
  {
  }

  lemma {:induction false} UnpackPackShort(bits: seq<Bit>)
    requires 0 < |bits| <= 8
    ensures Unpack(Pack(bits)) == Padded(bits)
  {
    var n := |bits|;
    assert Unpack(Pack(bits)) == ByteBits(Value(bits)) by {
      PackFront(bits);
      assert bits[..n] == bits;
      assert Pack(bits[n..]) == [];
    }
    assert ByteBits(Value(bits)) == Zeros(8 - n) + bits by {
      GroupRoundTrip(bits);
    }
    PaddedShort(bits);
  }

  lemma {:induction false} PaddedShort(bits: seq<Bit>)
    requires 0 < |bits| <= 8
    ensures Padded(bits) == Zeros(8 - |bits|) + bits
  {
    if |bits| == 8 {
      PaddedWhole(bits);
    } else {
      PaddedPartial(bits);
    }
  }

  lemma {:induction false} PaddedWhole(bits: seq<Bit>)
    requires |bits| == 8
    ensures Padded(bits) == Zeros(8 - |bits|) + bits
  {
    assert Zeros(0) + bits == bits;
  }

  lemma {:induction false} PaddedPartial(bits: seq<Bit>)
    requires 0 < |bits| < 8
    ensures Padded(bits) == Zeros(8 - |bits|) + bits
  {
    ModSmall(|bits|);
    assert bits[..0] == [] && bits[0..] == bits;
  }

  lemma {:induction false} UnpackPackPadded(bits: seq<Bit>)
    ensures Unpack(Pack(bits)) == Padded(bits)
    decreases |bits|
  {
    if 0 < |bits| <= 8 {
      UnpackPackShort(bits);
    } else if |bits| > 8 {
      var g, rest := bits[..8], bits[8..];
      assert Unpack(Pack(bits)) == ByteBits(Value(g)) + Unpack(Pack(rest)) by { PackFront(bits); }
      assert ByteBits(Value(g)) == g by { GroupRoundTrip(g); assert Zeros(0) + g == g; }
      UnpackPackPadded(rest);
      PaddedCons(bits);
    }
  }

  /**
   * Unpacking what was packed returns the bits exactly when their number is a
   * multiple of 8; otherwise the short last group of `k` bits comes back
   * behind `8 - k` zeros.
   */
  lemma {:induction false} UnpackPack(bits: seq<Bit>)
    ensures |bits| % 8 == 0 ==> Unpack(Pack(bits)) == bits
    ensures |bits| % 8 != 0 ==>
      var k := |bits| % 8;
      Unpack(Pack(bits)) == bits[..|bits| - k] + Zeros(8 - k) + bits[|bits| - k..]
  {
    UnpackPackPadded(bits);
  }

  /** Packing what was unpacked returns the bytes. */
  lemma {:induction false} PackUnpack(bytes: seq<Byte>)
    ensures Pack(Unpack(bytes)) == bytes
    decreases |bytes|
  {
    if bytes != [] {
      var g, t := ByteBits(bytes[0]), Unpack(bytes[1..]);
      ByteRoundTrip(bytes[0]);
      PackUnpack(bytes[1..]);
      PackFullGroup(g, t);
      assert bytes == [bytes[0]] + bytes[1..];
    }
  }

  /** A byte's 8 bits read back as the byte. */
  lemma {:induction false} ByteRoundTrip(b: Byte)
    ensures |ByteBits(b)| == 8 && Value(ByteBits(b)) == b
  {
    ByteBitsIsFixed(b);
    Pow2Eight();
    ValueOfFixed(b, 8);
  }

  /** A full group of 8 bits in front packs into one byte in front. */
  lemma {:induction false} PackFullGroup(g: seq<Bit>, t: seq<Bit>)
    requires |g| == 8
    ensures Pack(g + t) == [Value(g)] + Pack(t)
  {
    var u := g + t;
    assert Min(8, |u|) == 8;
    assert u[..8] == g && u[8..] == t;
  }
}

=== FILE: coding.dfy ===
/** `encode`/`encodeChar` and the `decodeBits` walk, both revisions. */
module Coding {
  import opened Basics
  import opened Nodes
  import opened PrefixCodes

  /** `if (!code)` fails both for a missing entry and for the empty string. */
  predicate HasCode(table: CodeTable, c: Sym) {
    c in table && table[c] != []
  }

  /** `encodeChar`. */
  function EncodeSymbol(c: Sym, table: CodeTable): (r: Result<seq<Bit>>)
    ensures r.Ok? <==> HasCode(table, c)
    ensures r.Ok? ==> r.value == table[c]
    ensures r.Err? ==> r.error == NoCode(c)
  {
    if HasCode(table, c) then Ok(table[c]) else Err(NoCode(c))
  }

  /**
   * `encode`: the codes of the symbols, in order; the first symbol without a
   * non-empty code throws.
   */
  function Encode(text: seq<Sym>, table: CodeTable): (r: Result<seq<Bit>>)
    ensures r.Ok? <==> forall i :: 0 <= i < |text| ==> HasCode(table, text[i])
    ensures r.Err? ==> r.error.NoCode? && r.error.sym in text && !HasCode(table, r.error.sym)
  {
    if text == [] then Ok([])
    else
      var code :- EncodeSymbol(text[0], table);
      var rest :- Encode(text[1..], table);
      assert forall i :: 1 <= i < |text| ==> text[i] == text[1..][i - 1];
      Ok(code + rest)
  }

  /** Encoding is a homomorphism: a concatenated text encodes to the concatenated codes. */
  lemma {:induction false} EncodeAppend(a: seq<Sym>, b: seq<Sym>, table: CodeTable)
    ensures Encode(a + b, table).Ok? <==> Encode(a, table).Ok? && Encode(b, table).Ok?
    ensures Encode(a + b, table).Ok? ==>
      Encode(a + b, table).value == Encode(a, table).value + Encode(b, table).value
    decreases |a|
  {
    if a == [] {
      assert a + b == b;
    } else {
      assert (a + b)[0] == a[0];
      assert (a + b)[1..] == a[1..] + b;
      EncodeAppend(a[1..], b, table);
    }
  }

  /** A one-symbol text encodes to that symbol's code. */
  lemma {:induction false} EncodeSingle(c: Sym, table: CodeTable)
    ensures Encode([c], table) == EncodeSymbol(c, table)
  {
    assert [c][1..] == [];
    if HasCode(table, c) {
      assert table[c] + [] == table[c];
    }
  }

  /** A table with only an empty code, a lone leaf's, encodes no non-empty text. */
  lemma {:induction false} EncodeWithEmptyCode(text: seq<Sym>, c: Sym)
    requires text != []
    ensures Encode(text, map[c := []]) == Err(NoCode(text[0]))
  {
  }

  function Prepend(c: Sym, r: Result<seq<Sym>>): Result<seq<Sym>> {
    match r
    case Ok(s) => Ok([c] + s)
    case Err(e) => Err(e)
  }

  function PrependAll(s: seq<Sym>, r: Result<seq<Sym>>): Result<seq<Sym>> {
    match r
    case Ok(t) => Ok(s + t)
    case Err(e) => Err(e)
  }

  /**
   * The current revision's walk from `cur`: `0` moves left and `1` right; a
   * null current node throws (only the null root can be current); a missing
   * child throws; a node carrying a symbol emits it and resets to the root.
   * A path left unfinished by the last bit emits nothing.
   */
  function Walk(root: Tree, cur: Tree, bits: seq<Bit>): (r: Result<seq<Sym>>)
    ensures r.Ok? ==> |r.value| <= |bits|
    ensures r.Err? ==> r.error == NoRoot || r.error == InvalidEncoding
    decreases |bits|
  {
    if bits == [] then Ok([])
    else if cur == Nil then Err(NoRoot)
    else
      var next := Child(cur, bits[0]);
      if next == Nil then Err(InvalidEncoding)
      else if next.ch.Some? then Prepend(next.ch.value, Walk(root, root, bits[1..]))
      else Walk(root, next, bits[1..])
  }

  /** `decodeBits` (current revision). */
  function Decode(root: Tree, bits: seq<Bit>): Result<seq<Sym>> {
    Walk(root, root, bits)
  }

  /**
   * Following one code from `cur` consumes exactly that code, emits its
   * symbol and leaves the walk at the root.
   */
  lemma {:induction false} WalkCodeword(root: Tree, cur: Tree, p: seq<Bit>, c: Sym, rest: seq<Bit>)
    requires Reaches(cur, p, c) && p != []
    ensures Walk(root, cur, p + rest) == Prepend(c, Walk(root, root, rest))
    decreases |p|
  {
    var next := Child(cur, p[0]);
    assert (p + rest)[0] == p[0];
    assert (p + rest)[1..] == p[1..] + rest;
    if p[1..] != [] {
      WalkCodeword(root, next, p[1..], c, rest);
    } else {
      assert p[1..] + rest == rest;
    }
  }

  /**
   * Decoding the encoding of `text` with the tree the code table came from
   * emits `text`, then decodes whatever follows as if on its own.
   */
  lemma {:induction false} DecodeEncodeThen(t: Tree, text: seq<Sym>, tail: seq<Bit>)
    requires Encode(text, CodeTableOf(t)).Ok?
    ensures Decode(t, Encode(text, CodeTableOf(t)).value + tail) == PrependAll(text, Decode(t, tail))
    decreases |text|
  {
    var table := CodeTableOf(t);
    if text == [] {
      assert [] + tail == tail;
      match Decode(t, tail)
      case Ok(s) => assert [] + s == s;
      case Err(_) =>
    } else {
      var c := text[0];
      var code := table[c];
      var restBits := Encode(text[1..], table).value;
      CodeTableIsPaths(t);
      DecodeEncodeThen(t, text[1..], tail);
      assert Encode(text, table).value + tail == code + (restBits + tail);
      WalkCodeword(t, t, code, c, restBits + tail);
      assert text == [c] + text[1..];
      match Decode(t, tail)
      case Ok(s) => assert [c] + (text[1..] + s) == text + s;
      case Err(_) =>
    }
  }

  /** Decoding inverts encoding for any tree and the code table derived from it. */
  lemma {:induction false} DecodeInvertsEncode(t: Tree, text: seq<Sym>)
    requires Encode(text, CodeTableOf(t)).Ok?
    ensures Decode(t, Encode(text, CodeTableOf(t)).value) == Ok(text)
  {
    DecodeEncodeThen(t, text, []);
    assert Encode(text, CodeTableOf(t)).value + [] == Encode(text, CodeTableOf(t)).value;
    assert text + [] == text;
  }

  /** A path from `cur` through symbol-less nodes only: the unfinished end of a code. */
  predicate Partial(cur: Tree, p: seq<Bit>)
    decreases |p|
  {
    cur.Node? && cur.ch == None && (p == [] || Partial(Child(cur, p[0]), p[1..]))
  }

  lemma {:induction false} WalkPartial(root: Tree, cur: Tree, p: seq<Bit>)
    requires Partial(cur, p)
    ensures Walk(root, cur, p) == Ok([])
    decreases |p|
  {
    if p != [] {
      WalkPartial(root, Child(cur, p[0]), p[1..]);
    }
  }

  /** Trailing bits that stop inside the tree are dropped without an error. */
  lemma {:induction false} DecodeDropsPartialPath(t: Tree, text: seq<Sym>, p: seq<Bit>)
    requires Encode(text, CodeTableOf(t)).Ok?
    requires Partial(t, p)
    ensures Decode(t, Encode(text, CodeTableOf(t)).value + p) == Ok(text)
  {
    DecodeEncodeThen(t, text, p);
    WalkPartial(t, t, p);
    assert text + [] == text;
  }

  /** From an internal node of a full tree with an internal root, no bit string makes the walk throw. */
  lemma {:induction false} WalkFullNeverFails(root: Tree, cur: Tree, bits: seq<Bit>)
    requires Full(root) && root.ch == None
    requires Full(cur) && cur.ch == None
    ensures Walk(root, cur, bits).Ok?
    decreases |bits|
  {
    if bits != [] {
      var next := Child(cur, bits[0]);
      if next.ch.Some? {
        WalkFullNeverFails(root, root, bits[1..]);
      } else {
        WalkFullNeverFails(root, next, bits[1..]);
      }
    }
  }

  /** On a full tree with two or more leaves, decoding never throws. */
  lemma {:induction false} DecodeFullNeverFails(t: Tree, bits: seq<Bit>)
    requires Full(t) && t.ch == None
    ensures Decode(t, bits).Ok?
  {
    WalkFullNeverFails(t, t, bits);
  }

  /**
   * A null root decodes only the empty bit string; a childless leaf root,
   * the single-symbol tree, throws on the first bit.
   */
  lemma {:induction false} DecodeErrors(t: Tree, bits: seq<Bit>)
    ensures t == Nil ==> Decode(t, bits) == (if bits == [] then Ok([]) else Err(NoRoot))
    ensures t.Node? && t.left == Nil && t.right == Nil && bits != [] ==> Decode(t, bits) == Err(InvalidEncoding)
  {
  }

  /**
   * The earlier revision's walk: optional chaining turns a null current node
   * into the same "Invalid encoded text" error as a missing child.
   */
  function WalkEarlier(root: Tree, cur: Tree, bits: seq<Bit>): Result<seq<Sym>>
    decreases |bits|
  {
    if bits == [] then Ok([])
    else if cur == Nil || Child(cur, bits[0]) == Nil then Err(InvalidEncoding)
    else
      var next := Child(cur, bits[0]);
      if next.ch.Some? then Prepend(next.ch.value, WalkEarlier(root, root, bits[1..]))
      else WalkEarlier(root, next, bits[1..])
  }

  /** `decodeBits` (earlier revision). */
  function DecodeEarlier(root: Tree, bits: seq<Bit>): Result<seq<Sym>> {
    WalkEarlier(root, root, bits)
  }

  function AsInvalid(r: Result<seq<Sym>>): Result<seq<Sym>> {
    if r.Err? then Err(InvalidEncoding) else r
  }

  lemma {:induction false} WalkEarlierAgrees(root: Tree, cur: Tree, bits: seq<Bit>)
    ensures WalkEarlier(root, cur, bits) == AsInvalid(Walk(root, cur, bits))
    decreases |bits|
  {
    if bits != [] && cur != Nil && Child(cur, bits[0]) != Nil {
      var next := Child(cur, bits[0]);
      if next.ch.Some? {
        WalkEarlierAgrees(root, root, bits[1..]);
      } else {
        WalkEarlierAgrees(root, next, bits[1..]);
      }
    }
  }

  /** The two revisions decode the same text and throw on the same inputs; only the error differs. */
  lemma {:induction false} DecodeEarlierAgrees(root: Tree, bits: seq<Bit>)
    ensures DecodeEarlier(root, bits).Ok? <==> Decode(root, bits).Ok?
    ensures DecodeEarlier(root, bits).Ok? ==> DecodeEarlier(root, bits) == Decode(root, bits)
    ensures DecodeEarlier(root, bits).Err? ==> DecodeEarlier(root, bits).error == InvalidEncoding
  {
    WalkEarlierAgrees(root, root, bits);
  }
}

=== FILE: compressor.dfy ===
/**
 * `HuffmanCompressor`: the whole pipeline from a text and a file extension to
 * one byte buffer, and back.
 */
module Compressor {
  import opened Basics
  import opened Nodes
  import opened TreeBuilder
  import opened Coding
  import opened BitPacking
  import opened TreeSerializer
  import opened Container
  import opened HuffmanTree

  /**
   * `compress` (current revision): build the coder, encode and pack the
   * text, serialize the tree, and frame the extension, tree text and payload.
   */
  function Compress(text: seq<Sym>, ext: seq<Byte>): (r: Result<seq<Byte>>)
    ensures r.Ok? <==> CompressedText(FromText(text), text).Ok?
    ensures r.Ok? ==> ReadU32(r.value, 0) == Ok(|ext| % TwoTo32)
  {
    var c := FromText(text);
    var payload :- CompressedText(c, text);
    Ok(Frame(Parts(ext, Serialize(c), payload)))
  }

  /**
   * `decompress` (current revision): unframe, deserialize the tree, then
   * decode the payload; returns the text and the extension bytes.
   */
  function Decompress(buf: seq<Byte>): (r: Result<(seq<Sym>, seq<Byte>)>)
    ensures r.Err? ==> r.error.OutOfBounds? || r.error in {BadFrequency, NoRoot, InvalidEncoding}
    ensures r.Ok? ==> Unframe(buf).Ok? && r.value.1 == Unframe(buf).value.ext
  {
    var parts :- Unframe(buf);
    var c :- Deserialize(parts.tree);
    var text :- DecompressBytes(c, parts.payload);
    Ok((text, parts.ext))
  }

  /** `compress` (earlier revision): `[treeLen][tree][payload]`, no extension. */
  function CompressEarlier(text: seq<Sym>): (r: Result<seq<Byte>>)
    ensures r.Ok? <==> CompressedText(FromTextEarlier(text), text).Ok?
  {
    var c := FromTextEarlier(text);
    var payload :- CompressedText(c, text);
    Ok(FrameEarlier(Serialize(c), payload))
  }

  /** `decompress` (earlier revision): every decoding error is the one "Invalid encoded text". */
  function DecompressEarlier(buf: seq<Byte>): (r: Result<seq<Sym>>)
    ensures r.Err? ==> r.error in {OutOfBounds(0), BadFrequency, InvalidEncoding}
  {
    var parts :- UnframeEarlier(buf);
    var c :- Deserialize(parts.0);
    DecompressBytesEarlier(c, parts.1)
  }

  /** The lengths the container stores fit in 32 bits. */
  predicate Fits(text: seq<Sym>, ext: seq<Byte>) {
    |ext| < TwoTo32 && |Serialize(FromText(text))| < TwoTo32
  }

  /** The framed parts of a compressed buffer come back out unchanged, with a consistent coder. */
  lemma {:induction false} CompressParts(text: seq<Sym>, ext: seq<Byte>)
    requires Fits(text, ext)
    requires Compress(text, ext).Ok?
    ensures Unframe(Compress(text, ext).value)
         == Ok(Parts(ext, Serialize(FromText(text)), CompressedText(FromText(text), text).value))
    ensures Deserialize(Serialize(FromText(text))) == Ok(FromText(text))
  {
    var c := FromText(text);
    FrameRoundTrip(Parts(ext, Serialize(c), CompressedText(c, text).value));
    FromTextTable(text);
    SerializeRoundTrip(c);
  }

  /** The text part of a decompression result, paired with the extension. */
  function WithExt(d: Result<seq<Sym>>, ext: seq<Byte>): Result<(seq<Sym>, seq<Byte>)> {
    if d.Ok? then Ok((d.value, ext)) else Err(d.error)
  }

  /** Decompressing a compressed buffer decodes its payload with the coder built from the text. */
  lemma {:induction false} DecompressCompressed(text: seq<Sym>, ext: seq<Byte>)
    requires Fits(text, ext)
    requires Compress(text, ext).Ok?
    ensures Decompress(Compress(text, ext).value)
         == WithExt(DecompressBytes(FromText(text), CompressedText(FromText(text), text).value), ext)
  {
    CompressParts(text, ext);
  }

  /**
   * The round trip holds for a text with two or more distinct symbols whose
   * encoding fills whole bytes.
   */
  lemma {:induction false} RoundTrip(text: seq<Sym>, ext: seq<Byte>)
    requires ManySymbols(text) && WholeBytes(text) && Fits(text, ext)
    ensures Compress(text, ext).Ok?
    ensures Decompress(Compress(text, ext).value) == Ok((text, ext))
  {
    EncodeSucceeds(text);
    DecompressCompressed(text, ext);
    CodecRoundTrip(text);
  }

  /**
   * In general the decompressor decodes the packed-and-unpacked bit string,
   * in which a short last group of k bits comes back behind 8 - k zeros
   * (`BitPacking.UnpackPack`).
   */
  lemma {:induction false} PaddedRoundTrip(text: seq<Sym>, ext: seq<Byte>)
    requires ManySymbols(text) && Fits(text, ext)
    ensures Compress(text, ext).Ok?
    ensures Decompress(Compress(text, ext).value)
         == WithExt(Decode(BuildTree(text), Padded(Encode(text, FromText(text).table).value)), ext)
  {
    EncodeSucceeds(text);
    DecompressCompressed(text, ext);
    FromTextTable(text);
  }

  /** The empty text compresses to the `null` tree and no payload, and comes back empty. */
  lemma {:induction false} EmptyRoundTrip(ext: seq<Byte>)
    requires |ext| < TwoTo32
    ensures Compress([], ext) == Ok(Frame(Parts(ext, NullText, [])))
    ensures Decompress(Compress([], ext).value) == Ok(([], ext))
  {
    FrameRoundTrip(Parts(ext, NullText, []));
    DeserializeEdgeCases();
  }

  /** A text of one repeated symbol cannot be compressed: its only code is empty. */
  lemma {:induction false} SingleSymbolRejected(text: seq<Sym>, ext: seq<Byte>)
    requires text != [] && !ManySymbols(text)
    ensures Compress(text, ext) == Err(NoCode(text[0]))
    ensures CompressEarlier(text) == Err(NoCode(text[0]))
  {
    SingleSymbolFails(text);
    FromTextEarlierAgrees(text);
  }

  /** A buffer too short for the first length is rejected by both revisions. */
  lemma {:induction false} ShortBufferRejected(buf: seq<Byte>)
    requires |buf| < 4
    ensures Decompress(buf) == Err(OutOfBounds(0))
    ensures DecompressEarlier(buf) == Err(OutOfBounds(0))
  {
  }

  /** The earlier revision round-trips under the same conditions. */
  lemma {:induction false} EarlierRoundTrip(text: seq<Sym>)
    requires ManySymbols(text) && WholeBytes(text) && |Serialize(FromText(text))| < TwoTo32
    ensures CompressEarlier(text).Ok?
    ensures DecompressEarlier(CompressEarlier(text).value) == Ok(text)
  {
    var c := FromText(text);
    FromTextEarlierAgrees(text);
    EncodeSucceeds(text);
    var payload := CompressedText(c, text).value;
    FrameEarlierRoundTrip(Serialize(c), payload);
    FromTextTable(text);
    SerializeRoundTrip(c);
    CodecRoundTrip(text);
    DecodeEarlierAgrees(c.root, Unpack(payload));
  }
}

=== FILE: container.dfy ===
/**
 * The byte layout `compress` writes and `decompress` reads: little-endian
 * 32-bit length prefixes (`DataView.setUint32`/`getUint32` with
 * `littleEndian = true`) and clamped `Uint8Array.slice` reads.
 */
module Container {
  import opened Basics

  const TwoTo32: nat := 0x1_0000_0000

  /** The value of four bytes, least significant first. */
  function LE(b: seq<Byte>): nat
    requires |b| == 4
  {
    b[0] as int + 256 * (b[1] as int) + 65536 * (b[2] as int) + 16777216 * (b[3] as int)
  }

  /** `setUint32(_, n, true)`: the length is reduced modulo 2^32 and written low byte first. */
  function U32LE(n: nat): (b: seq<Byte>)
    ensures |b| == 4
    ensures LE(b) == n % TwoTo32
  {
    var m := n % TwoTo32;
    var q1 := m / 256;
    var q2 := q1 / 256;
    var q3 := q2 / 256;
    assert m == m % 256 + 256 * q1;
    assert q1 == q1 % 256 + 256 * q2;
    assert q2 == q2 % 256 + 256 * q3;
    assert q1 < 0x100_0000 && q2 < 0x1_0000 && q3 < 256;
    [m % 256, q1 % 256, q2 % 256, q3]
  }

  /** `getUint32(off, true)`: reading past the end of the buffer throws a range error. */
  function ReadU32(buf: seq<Byte>, off: nat): (r: Result<nat>)
    ensures r.Ok? <==> off + 4 <= |buf|
    ensures r.Ok? ==> r.value < TwoTo32
    ensures r.Err? ==> r.error == OutOfBounds(off)
  {
    if off + 4 <= |buf| then Ok(LE(buf[off..off + 4])) else Err(OutOfBounds(off))
  }

  /** `slice(from, to)`: both ends are clamped to the buffer; an inverted range is empty. */
  function Slice(buf: seq<Byte>, from: nat, to: nat): (s: seq<Byte>)
    ensures from <= to <= |buf| ==> |s| == to - from
    ensures to <= from || |buf| <= from ==> s == []
    ensures from <= |buf| <= to ==> |s| == |buf| - from
    ensures forall i :: 0 <= i < |s| ==> from + i < |buf| && s[i] == buf[from + i]
  {
    var lo := Min(from, |buf|);
    var hi := Min(to, |buf|);
    if lo < hi then buf[lo..hi] else []
  }

  /** `slice(from)`: everything from `from` on, or nothing when `from` is past the end. */
  function SliceFrom(buf: seq<Byte>, from: nat): (s: seq<Byte>)
    ensures |s| == if from <= |buf| then |buf| - from else 0
    ensures forall i :: 0 <= i < |s| ==> s[i] == buf[from + i]
  {
    Slice(buf, from, |buf|)
  }

  /** The three byte strings the current container carries. */
  datatype Parts = Parts(ext: seq<Byte>, tree: seq<Byte>, payload: seq<Byte>)

  /** `compress` (current revision): `[extLen][ext][treeLen][tree][payload]`. */
  function Frame(p: Parts): (buf: seq<Byte>)
    ensures |buf| == 8 + |p.ext| + |p.tree| + |p.payload|
    ensures ReadU32(buf, 0) == Ok(|p.ext| % TwoTo32)
  {
    var buf := U32LE(|p.ext|) + p.ext + U32LE(|p.tree|) + p.tree + p.payload;
    assert buf[..4] == U32LE(|p.ext|);
    buf
  }

  /**
   * `decompress` (current revision) up to the parts: a buffer too short for
   * either length throws; lengths that claim more than is there are clamped.
   */
  function Unframe(buf: seq<Byte>): (r: Result<Parts>)
    ensures r.Ok? <==> |buf| >= 4 && 8 + LE(buf[..4]) <= |buf|
    ensures r.Err? ==> r.error == OutOfBounds(if |buf| < 4 then 0 else 4 + LE(buf[..4]))
    ensures r.Ok? ==> |r.value.ext| == LE(buf[..4])
    ensures r.Ok? ==> 8 + |r.value.ext| + |r.value.tree| + |r.value.payload| == |buf|
    ensures r.Ok? && 8 + |r.value.ext| + LE(buf[4 + |r.value.ext|..8 + |r.value.ext|]) > |buf| ==>
      r.value.tree == buf[8 + |r.value.ext|..] && r.value.payload == []
  {
    var extLen :- ReadU32(buf, 0);
    var ext := Slice(buf, 4, 4 + extLen);
    var treeLen :- ReadU32(buf, 4 + extLen);
    var tree := Slice(buf, 8 + extLen, 8 + extLen + treeLen);
    var payload := SliceFrom(buf, 8 + extLen + treeLen);
    Ok(Parts(ext, tree, payload))
  }

  /** Framing and unframing are inverse while both lengths fit in 32 bits. */
  lemma {:induction false} FrameRoundTrip(p: Parts)
    requires |p.ext| < TwoTo32 && |p.tree| < TwoTo32
    ensures Unframe(Frame(p)) == Ok(p)
  {
    var buf := Frame(p);
    var e, t := |p.ext|, |p.tree|;
    assert ReadU32(buf, 0) == Ok(e);
    assert ReadU32(buf, 4 + e) == Ok(t) by {
      assert buf[4 + e..8 + e] == U32LE(t);
    }
    assert Slice(buf, 4, 4 + e) == p.ext;
    assert Slice(buf, 8 + e, 8 + e + t) == p.tree;
    assert SliceFrom(buf, 8 + e + t) == p.payload;
  }

  /** Where `Frame` puts each part: `[extLen][ext][treeLen][tree][payload]`. */
  lemma {:induction false} FrameLayout(p: Parts)
    ensures var buf, e, t := Frame(p), |p.ext|, |p.tree|;
      && buf[..4] == U32LE(e) && buf[4..4 + e] == p.ext
      && buf[4 + e..8 + e] == U32LE(t) && buf[8 + e..8 + e + t] == p.tree
      && buf[8 + e + t..] == p.payload
  {
    var buf, e, t := Frame(p), |p.ext|, |p.tree|;
    assert buf[4..4 + e] == p.ext;
    assert buf[4 + e..8 + e] == U32LE(t);
    assert buf[8 + e..8 + e + t] == p.tree;
    assert buf[8 + e + t..] == p.payload;
  }

  /**
   * Where `Unframe` reads each part: the extension right after its length,
   * the tree right after its (clamped) length, and the payload as every byte
   * after the tree.
   */
  lemma {:induction false} UnframeLayout(buf: seq<Byte>)
    requires Unframe(buf).Ok?
    ensures var q := Unframe(buf).value; var e, t := |q.ext|, |q.tree|;
      && q.ext == buf[4..4 + e]
      && t == Min(LE(buf[4 + e..8 + e]), |buf| - 8 - e)
      && q.tree == buf[8 + e..8 + e + t]
      && q.payload == buf[8 + e + t..]
  {
  }

  /** The earlier container carries no extension: `[treeLen][tree][payload]`. */
  function FrameEarlier(tree: seq<Byte>, payload: seq<Byte>): (buf: seq<Byte>)
    ensures |buf| == 4 + |tree| + |payload|
    ensures ReadU32(buf, 0) == Ok(|tree| % TwoTo32)
  {
    var buf := U32LE(|tree|) + tree + payload;
    assert buf[..4] == U32LE(|tree|);
    buf
  }

  /** `decompress` (earlier revision) up to the parts. */
  function UnframeEarlier(buf: seq<Byte>): (r: Result<(seq<Byte>, seq<Byte>)>)
    ensures r.Ok? <==> |buf| >= 4
    ensures r.Err? ==> r.error == OutOfBounds(0)
    ensures r.Ok? ==> 4 + |r.value.0| + |r.value.1| == |buf|
  {
    var treeLen :- ReadU32(buf, 0);
    var tree := Slice(buf, 4, 4 + treeLen);
    var payload := SliceFrom(buf, 4 + treeLen);
    Ok((tree, payload))
  }

  /** Where `FrameEarlier` puts each part: `[treeLen][tree][payload]`. */
  lemma {:induction false} FrameEarlierLayout(tree: seq<Byte>, payload: seq<Byte>)
    ensures var buf := FrameEarlier(tree, payload);
      buf[..4] == U32LE(|tree|) && buf[4..4 + |tree|] == tree && buf[4 + |tree|..] == payload
  {
    var buf := FrameEarlier(tree, payload);
    assert buf[4..4 + |tree|] == tree;
    assert buf[4 + |tree|..] == payload;
  }

  /** Where `UnframeEarlier` reads each part: the tree after its clamped length, then the rest. */
  lemma {:induction false} UnframeEarlierLayout(buf: seq<Byte>)
    requires UnframeEarlier(buf).Ok?
    ensures var q := UnframeEarlier(buf).value; var t := |q.0|;
      && t == Min(LE(buf[..4]), |buf| - 4)
      && q.0 == buf[4..4 + t] && q.1 == buf[4 + t..]
  {
  }

  lemma {:induction false} FrameEarlierRoundTrip(tree: seq<Byte>, payload: seq<Byte>)
    requires |tree| < TwoTo32
    ensures UnframeEarlier(FrameEarlier(tree, payload)) == Ok((tree, payload))
  {
    var buf := FrameEarlier(tree, payload);
    assert buf[..4] == U32LE(|tree|);
    assert UnframeEarlier(buf).value.0 == tree;
    assert UnframeEarlier(buf).value.1 == payload;
  }
}

=== FILE: example.dfy ===
/**
 * The text "aaab" worked through the whole pipeline. It has four code bits,
 * so its only byte is short: packing writes 1110 as the byte 14, unpacking
 * reads 00001110, and the decoder returns "bbbbaaab" in place of "aaab".
 */
module Example {
  import opened Basics
  import opened Nodes
  import opened Frequencies
  import opened StableSort
  import opened TreeBuilder
  import opened PrefixCodes
  import opened Coding
  import opened BitPacking
  import opened TreeSerializer
  import opened Container
  import opened HuffmanTree
  import opened Compressor

  const A: Sym := 97
  const B: Sym := 98
  const Aaab: seq<Sym> := [A, A, A, B]
  const LeafA: Tree := Node(Some(A), 3, Nil, Nil)
  const LeafB: Tree := Node(Some(B), 1, Nil, Nil)
  /** "b" is the lighter leaf, so it is sorted first and becomes the left child. */
  const AaabTree: Tree := Node(None, 4, LeafB, LeafA)

  lemma {:induction false} AaabTally()
    ensures Tally(Aaab) == [Entry(A, 3), Entry(B, 1)]
  {
    assert Aaab[..3] == [A, A, A];
    assert [A, A, A][..2] == [A, A];
    assert [A, A][..1] == [A];
    assert [A][..0] == [];
    assert Tally([A]) == [Entry(A, 1)];
    assert Tally([A, A]) == [Entry(A, 2)];
    assert Tally([A, A, A]) == [Entry(A, 3)];
  }

  lemma {:induction false} AaabSort()
    ensures Sort([LeafA, LeafB]) == [LeafB, LeafA]
  {
    assert [LeafA, LeafB][1..] == [LeafB];
    assert Sort([LeafB]) == [LeafB] by {
      assert [LeafB][1..] == [];
    }
    assert Insert(LeafA, [LeafB]) == [LeafB, LeafA] by {
      assert [LeafB][1..] == [];
    }
  }

  lemma {:induction false} AaabBuild()
    ensures BuildTree(Aaab) == AaabTree
  {
    assert InitialNodes(Aaab) == [LeafA, LeafB] by {
      AaabTally();
    }
    assert Merge([LeafA, LeafB]) == [AaabTree] by {
      AaabSort();
    }
    assert Build([LeafA, LeafB]) == Build([AaabTree]);
  }

  lemma {:induction false} AaabCoder()
    ensures FromText(Aaab) == Coder(AaabTree, map[B := [0], A := [1]])
  {
    AaabBuild();
    var p0: seq<Bit> := [] + [0];
    var p1: seq<Bit> := [] + [1];
    assert p0 == [0] && p1 == [1];
    assert Codes(LeafB, p0, map[]) == map[B := [0]];
    assert Codes(LeafA, p1, map[B := [0]]) == map[B := [0], A := [1]];
  }

  lemma {:induction false} AaabBits()
    ensures Encode(Aaab, map[B := [0], A := [1]]) == Ok([1, 1, 1, 0])
    ensures Pack([1, 1, 1, 0]) == [14]
    ensures Unpack([14]) == [0, 0, 0, 0, 1, 1, 1, 0]
  {
    AaabEncode();
    AaabPack();
    AaabUnpack();
  }

  lemma {:induction false} AaabEncode()
    ensures Encode(Aaab, map[B := [0], A := [1]]) == Ok([1, 1, 1, 0])
  {
    var table := map[B := [0], A := [1]];
    assert Encode([B], table) == Ok([0]) by {
      EncodeSingle(B, table);
    }
    assert EncodeSymbol(A, table) == Ok([1]);
    assert Encode([A, B], table) == Ok([1, 0]) by {
      assert [A, B][0] == A && [A, B][1..] == [B];
      assert [1] + [0] == [1, 0];
    }
    assert Encode([A, A, B], table) == Ok([1, 1, 0]) by {
      assert [A, A, B][0] == A && [A, A, B][1..] == [A, B];
      assert [1] + [1, 0] == [1, 1, 0];
    }
    assert [1] + [1, 1, 0] == [1, 1, 1, 0];
    assert Aaab[1..] == [A, A, B];
  }

  lemma {:induction false} AaabPack()
    ensures Pack([1, 1, 1, 0]) == [14]
  {
    var bits: seq<Bit> := [1, 1, 1, 0];
    assert bits[..4] == bits && bits[4..] == [];
    assert Value(bits[..3]) == 7 by {
      assert bits[..3][..2] == [1, 1];
      assert [1, 1][..1] == [1];
      assert [1][..0] == [];
    }
  }

  lemma {:induction false} AaabUnpack()
    ensures Unpack([14]) == [0, 0, 0, 0, 1, 1, 1, 0]
  {
    assert Binary(14) == [1, 1, 1, 0] by {
      assert Binary(7) == [1, 1, 1];
    }
    assert [14][1..] == [];
  }

  /** Below the root every bit reaches a leaf: 0 is "b", 1 is "a". */
  lemma {:induction false} AaabDecodeStep(b: Bit, rest: seq<Bit>)
    ensures Decode(AaabTree, [b] + rest) == Prepend(if b == 0 then B else A, Decode(AaabTree, rest))
  {
    assert ([b] + rest)[0] == b;
    assert ([b] + rest)[1..] == rest;
  }

  lemma {:induction false} AaabDecode()
    ensures Decode(AaabTree, [0, 0, 0, 0, 1, 1, 1, 0]) == Ok([B, B, B, B, A, A, A, B])
  {
    var bits: seq<Bit> := [0, 0, 0, 0, 1, 1, 1, 0];
    var text: seq<Sym> := [B, B, B, B, A, A, A, B];
    var i := 8;
    assert Decode(AaabTree, bits[8..]) == Ok(text[8..]);
    while i > 0
      invariant 0 <= i <= 8
      invariant Decode(AaabTree, bits[i..]) == Ok(text[i..])
    {
      i := i - 1;
      assert bits[i..] == [bits[i]] + bits[i + 1..];
      AaabDecodeStep(bits[i], bits[i + 1..]);
      assert text[i..] == [text[i]] + text[i + 1..];
    }
  }

  /** Both revisions turn "aaab" into a buffer that decompresses to "bbbbaaab". */
  lemma {:induction false} AaabRoundTrip(ext: seq<Byte>)
    requires |ext| < TwoTo32
    ensures Compress(Aaab, ext).Ok?
    ensures Decompress(Compress(Aaab, ext).value) == Ok(([B, B, B, B, A, A, A, B], ext))
    ensures CompressEarlier(Aaab).Ok?
    ensures DecompressEarlier(CompressEarlier(Aaab).value) == Ok([B, B, B, B, A, A, A, B])
  {
    AaabCurrent(ext);
    AaabEarlier();
  }

  /** The facts both revisions' round trips rest on. */
  lemma {:induction false} AaabFacts()
    ensures FromText(Aaab) == Coder(AaabTree, map[B := [0], A := [1]])
    ensures Encode(Aaab, map[B := [0], A := [1]]) == Ok([1, 1, 1, 0])
    ensures Pack([1, 1, 1, 0]) == [14]
    ensures Padded([1, 1, 1, 0]) == [0, 0, 0, 0, 1, 1, 1, 0]
    ensures Decode(AaabTree, [0, 0, 0, 0, 1, 1, 1, 0]) == Ok([B, B, B, B, A, A, A, B])
    ensures |Serialize(FromText(Aaab))| < TwoTo32
    ensures ManySymbols(Aaab)
  {
    AaabCoder();
    AaabBits();
    AaabDecode();
    assert |Serialize(FromText(Aaab))| < TwoTo32 by {
      assert |SerializeNode(LeafA)| < 20 && |SerializeNode(LeafB)| < 20;
    }
    assert ManySymbols(Aaab) by {
      assert Aaab[0] != Aaab[3];
    }
    assert Padded([1, 1, 1, 0]) == [0, 0, 0, 0, 1, 1, 1, 0] by {
      UnpackPackPadded([1, 1, 1, 0]);
    }
  }

  lemma {:induction false} AaabCurrent(ext: seq<Byte>)
    requires |ext| < TwoTo32
    ensures Compress(Aaab, ext).Ok?
    ensures Decompress(Compress(Aaab, ext).value) == Ok(([B, B, B, B, A, A, A, B], ext))
  {
    AaabFacts();
    PaddedRoundTrip(Aaab, ext);
  }

  lemma {:induction false} AaabEarlier()
    ensures CompressEarlier(Aaab).Ok?
    ensures DecompressEarlier(CompressEarlier(Aaab).value) == Ok([B, B, B, B, A, A, A, B])
  {
    AaabFacts();
    FromTextEarlierAgrees(Aaab);
    var c := FromText(Aaab);
    FrameEarlierRoundTrip(Serialize(c), [14]);
    SerializeRoundTrip(c);
    DecodeEarlierAgrees(AaabTree, [0, 0, 0, 0, 1, 1, 1, 0]);
  }
}

=== FILE: frequencies.dfy ===
/** `getFrequencies` and `createNodes`: the insertion-ordered symbol count table and its leaves. */
module Frequencies {
  import opened Basics
  import opened Nodes

  /** One entry of the insertion-ordered `Map<string, number>`. */
  datatype Entry = Entry(sym: Sym, count: nat)

  function Keys(es: seq<Entry>): (ks: seq<Sym>)
    ensures |ks| == |es|
    ensures forall i :: 0 <= i < |es| ==> ks[i] == es[i].sym
  {
    if es == [] then [] else [es[0].sym] + Keys(es[1..])
  }

  function SumCounts(es: seq<Entry>): nat {
    if es == [] then 0 else es[0].count + SumCounts(es[1..])
  }

  /** Number of occurrences of `c` in `text`. */
  function Occ(text: seq<Sym>, c: Sym): nat {
    multiset(text)[c]
  }

  lemma {:induction false} SumCountsAppend(es: seq<Entry>, e: Entry)
    ensures SumCounts(es + [e]) == SumCounts(es) + e.count
    decreases |es|
  {
    if es == [] {
      assert es + [e] == [e];
    } else {
      assert (es + [e])[1..] == es[1..] + [e];
      SumCountsAppend(es[1..], e);
    }
  }

  lemma {:induction false} SumCountsBump(es: seq<Entry>, i: nat)
    requires i < |es|
    ensures SumCounts(es[i := es[i].(count := es[i].count + 1)]) == SumCounts(es) + 1
    decreases |es|
  {
    if i > 0 {
      assert es[i := es[i].(count := es[i].count + 1)][1..] == es[1..][i - 1 := es[i].(count := es[i].count + 1)];
      SumCountsBump(es[1..], i - 1);
    }
  }

  /** One step of the counting loop: `frequencies.set(char, (frequencies.get(char) || 0) + 1)`. */
  function Bump(es: seq<Entry>, c: Sym): (r: seq<Entry>)
    ensures c in Keys(es) ==> |r| == |es|
    ensures c !in Keys(es) ==> |r| == |es| + 1 && r[|es|] == Entry(c, 1)
    ensures forall i :: 0 <= i < |es| ==> r[i].sym == es[i].sym
    ensures forall i :: 0 <= i < |es| && es[i].sym != c ==> r[i].count == es[i].count
    ensures Distinct(Keys(es)) ==> forall i :: 0 <= i < |es| && es[i].sym == c ==> r[i].count == es[i].count + 1
  {
    var i := FirstIndex(Keys(es), c);
    if i < |es| then es[i := es[i].(count := es[i].count + 1)] else es + [Entry(c, 1)]
  }

  /** `getFrequencies`: visits `text` left to right, bumping each symbol's entry. */
  function Tally(text: seq<Sym>): seq<Entry>
    decreases |text|
  {
    if text == [] then [] else Bump(Tally(text[..|text| - 1]), text[|text| - 1])
  }

  lemma {:induction false} BumpSum(es: seq<Entry>, c: Sym)
    ensures SumCounts(Bump(es, c)) == SumCounts(es) + 1
  {
    var i := FirstIndex(Keys(es), c);
    if i < |es| {
      SumCountsBump(es, i);
    } else {
      SumCountsAppend(es, Entry(c, 1));
    }
  }

  lemma {:induction false} BumpKeys(es: seq<Entry>, c: Sym)
    ensures Keys(Bump(es, c)) == if c in Keys(es) then Keys(es) else Keys(es) + [c]
  {
  }

  lemma {:induction false} SplitLast(text: seq<Sym>)
    requires text != []
    ensures text == text[..|text| - 1] + [text[|text| - 1]]
    ensures forall c :: c in text <==> c in text[..|text| - 1] || c == text[|text| - 1]
    ensures multiset(text) == multiset(text[..|text| - 1]) + multiset{text[|text| - 1]}
  {
    assert text == text[..|text| - 1] + [text[|text| - 1]];
  }

  /** The table has one entry per distinct symbol of the text and no other. */
  lemma {:induction false} TallyKeys(text: seq<Sym>)
    ensures Distinct(Keys(Tally(text)))
    ensures forall c :: c in Keys(Tally(text)) <==> c in text
    decreases |text|
  {
    if text != [] {
      var p, x := text[..|text| - 1], text[|text| - 1];
      SplitLast(text);
      TallyKeys(p);
      BumpKeys(Tally(p), x);
    }
  }

  /** The counts sum to the length of the text. */
  lemma {:induction false} TallySum(text: seq<Sym>)
    ensures SumCounts(Tally(text)) == |text|
    decreases |text|
  {
    if text != [] {
      TallySum(text[..|text| - 1]);
      BumpSum(Tally(text[..|text| - 1]), text[|text| - 1]);
    }
  }

  /** Each entry counts exactly the occurrences of its symbol. */
  lemma {:induction false} TallyCounts(text: seq<Sym>)
    ensures forall i :: 0 <= i < |Tally(text)| ==> Tally(text)[i].count == Occ(text, Tally(text)[i].sym)
    decreases |text|
  {
    if text != [] {
      var p, x := text[..|text| - 1], text[|text| - 1];
      SplitLast(text);
      TallyCounts(p);
      TallyKeys(p);
      var es := Tally(p);
      var r := Bump(es, x);
      assert r == Tally(text);
      forall i | 0 <= i < |r|
        ensures r[i].count == Occ(text, r[i].sym)
      {
        if i == |es| {
          assert x !in Keys(es);
          assert x !in p;
        }
      }
    }
  }

  lemma {:induction false} FirstIndexAppend(s: seq<Sym>, x: Sym, c: Sym)
    ensures c in s ==> FirstIndex(s + [x], c) == FirstIndex(s, c)
    ensures c !in s && c == x ==> FirstIndex(s + [x], c) == |s|
  {
    if s != [] {
      assert (s + [x])[1..] == s[1..] + [x];
      FirstIndexAppend(s[1..], x, c);
    } else {
      assert s + [x] == [x];
    }
  }

  /** Entries appear in the order their symbols first occur in the text. */
  lemma {:induction false} TallyOrder(text: seq<Sym>)
    ensures forall i, j :: 0 <= i < j < |Tally(text)| ==>
      FirstIndex(text, Tally(text)[i].sym) < FirstIndex(text, Tally(text)[j].sym)
    decreases |text|
  {
    if text != [] {
      var p, x := text[..|text| - 1], text[|text| - 1];
      SplitLast(text);
      TallyOrder(p);
      TallyKeys(p);
      var es := Tally(p);
      var r := Bump(es, x);
      assert r == Tally(text);
      forall i | 0 <= i < |es|
        ensures FirstIndex(text, r[i].sym) == FirstIndex(p, es[i].sym) < |p|
      {
        assert es[i].sym == Keys(es)[i];
        FirstIndexAppend(p, x, es[i].sym);
      }
      if x !in Keys(es) {
        FirstIndexAppend(p, x, x);
      }
    }
  }

  lemma {:induction false} DistinctMultiset<T>(s: seq<T>)
    requires Distinct(s)
    ensures forall c :: multiset(s)[c] == if c in s then 1 else 0
    decreases |s|
  {
    if s != [] {
      assert s == [s[0]] + s[1..];
      assert Distinct(s[1..]);
      DistinctMultiset(s[1..]);
      assert s[0] !in s[1..];
    }
  }

  /**
   * The table `getFrequencies` returns: one entry per distinct symbol, in
   * first-occurrence order, with the symbol's occurrence count (at least one),
   * the counts summing to the text length.
   */
  lemma {:induction false} TallyCorrect(text: seq<Sym>)
    ensures forall c :: multiset(Keys(Tally(text)))[c] == (if c in text then 1 else 0)
    ensures forall e :: e in Tally(text) ==> e.sym in text && e.count == Occ(text, e.sym) >= 1
    ensures forall i, j :: 0 <= i < j < |Tally(text)| ==>
      FirstIndex(text, Tally(text)[i].sym) < FirstIndex(text, Tally(text)[j].sym)
    ensures SumCounts(Tally(text)) == |text|
  {
    TallyMultiset(text);
    TallyEntries(text);
    TallyOrder(text);
    TallySum(text);
  }

  lemma {:induction false} TallyMultiset(text: seq<Sym>)
    ensures forall c :: multiset(Keys(Tally(text)))[c] == (if c in text then 1 else 0)
  {
    TallyKeys(text);
    DistinctMultiset(Keys(Tally(text)));
  }

  lemma {:induction false} TallyEntries(text: seq<Sym>)
    ensures forall e :: e in Tally(text) ==> e.sym in text && e.count == Occ(text, e.sym) >= 1
  {
    var r := Tally(text);
    TallyKeys(text);
    TallyCounts(text);
    forall e | e in r
      ensures e.sym in text && e.count == Occ(text, e.sym) >= 1
    {
      var i :| 0 <= i < |r| && r[i] == e;
      assert Keys(r)[i] == e.sym;
    }
  }

  /** `createNodes`: one leaf per table entry, in table order. */
  function Leaves(es: seq<Entry>): (ns: seq<Tree>)
    ensures |ns| == |es|
    ensures forall i :: 0 <= i < |es| ==> ns[i] == MakeNode(Some(es[i].sym), es[i].count)
  {
    if es == [] then [] else [MakeNode(Some(es[0].sym), es[0].count)] + Leaves(es[1..])
  }

  lemma {:induction false} FlattenLeaves(es: seq<Entry>)
    ensures Flatten(Leaves(es)) == Keys(es)
    decreases |es|
  {
    if es != [] {
      assert Leaves(es)[1..] == Leaves(es[1..]);
      FlattenLeaves(es[1..]);
    }
  }

  /** The leaves the tree builder starts from. */
  function InitialNodes(text: seq<Sym>): seq<Tree> {
    Leaves(Tally(text))
  }

  /**
   * `createNodes(getFrequencies(text))`: one childless leaf per distinct
   * symbol, in first-occurrence order, weighted by its occurrence count.
   */
  lemma {:induction false} InitialNodesCorrect(text: seq<Sym>)
    ensures forall c :: multiset(Flatten(InitialNodes(text)))[c] == (if c in text then 1 else 0)
    ensures forall t :: t in InitialNodes(text) ==>
      IsLeaf(t) && t.left == Nil && t.right == Nil && t.ch.value in text && t.freq == Occ(text, t.ch.value)
    ensures forall i, j :: 0 <= i < j < |InitialNodes(text)| ==>
      FirstIndex(text, InitialNodes(text)[i].ch.value) < FirstIndex(text, InitialNodes(text)[j].ch.value)
    ensures (text == []) == (InitialNodes(text) == [])
  {
    var es := Tally(text);
    var ns := Leaves(es);
    TallyCorrect(text);
    FlattenLeaves(es);
    forall t | t in ns
      ensures IsLeaf(t) && t.left == Nil && t.right == Nil && t.ch.value in text && t.freq == Occ(text, t.ch.value)
    {
      var i :| 0 <= i < |ns| && ns[i] == t;
      assert es[i] in es;
    }
    if text != [] {
      assert multiset(Keys(es))[text[0]] == 1;
    }
  }
}

=== FILE: huffman_tree.dfy ===
/**
 * The `HuffmanTree` class: a root and the prefix-code table generated from
 * it, built from a text or read back from its serialized form, and the
 * text-to-bytes and bytes-to-text halves of the codec.
 */
module HuffmanTree {
  import opened Basics
  import opened Nodes
  import opened Frequencies
  import opened TreeBuilder
  import opened PrefixCodes
  import opened Coding
  import opened BitPacking
  import opened TreeSerializer

  /** The state of a `HuffmanTree` that the codec uses (its `extension` field is never read). */
  datatype Coder = Coder(root: Tree, table: CodeTable)

  /** The table is the one `generatePrefixCodes` derives from the root. */
  predicate Consistent(c: Coder) {
    c.table == CodeTableOf(c.root)
  }

  /** The text holds two different symbols. */
  predicate ManySymbols(text: seq<Sym>) {
    exists i, j :: 0 <= i < |text| && 0 <= j < |text| && text[i] != text[j]
  }

  /** The constructor (current revision): `if (text)` builds the tree and its codes. */
  function FromText(text: seq<Sym>): Coder {
    if text == [] then Coder(Nil, map[])
    else
      var t := BuildTree(text);
      Coder(t, CodeTableOf(t))
  }

  /**
   * The constructor (earlier revision), with the earlier tree-building loop.
   * Its `frequencies.forEach` node creation walks the map in insertion order,
   * which is what `InitialNodes` does, so the two revisions share that step.
   */
  function FromTextEarlier(text: seq<Sym>): Coder {
    if text == [] then Coder(Nil, map[])
    else
      var t := BuildEarlier(InitialNodes(text));
      Coder(t, CodeTableOf(t))
  }

  /** `getCompressedText`: encode, then pack the bit string eight bits at a time. */
  function CompressedText(c: Coder, text: seq<Sym>): (r: Result<seq<Byte>>)
    ensures r.Ok? <==> Encode(text, c.table).Ok?
    ensures r.Ok? ==> Unpack(r.value) == Padded(Encode(text, c.table).value)
  {
    var bits :- Encode(text, c.table);
    UnpackPackPadded(bits);
    Ok(Pack(bits))
  }

  /** `decompress`: unpack each byte to eight bits and walk the tree (current revision). */
  function DecompressBytes(c: Coder, bytes: seq<Byte>): (r: Result<seq<Sym>>)
    ensures r.Ok? ==> |r.value| <= 8 * |bytes|
    ensures r.Err? ==> r.error == NoRoot || r.error == InvalidEncoding
  {
    UnpackLength(bytes);
    Decode(c.root, Unpack(bytes))
  }

  /** `decompress` (earlier revision). */
  function DecompressBytesEarlier(c: Coder, bytes: seq<Byte>): (r: Result<seq<Sym>>)
    ensures r.Err? ==> r.error == InvalidEncoding
  {
    DecodeEarlierAgrees(c.root, Unpack(bytes));
    DecodeEarlier(c.root, Unpack(bytes))
  }

  /** `serialize`. */
  function Serialize(c: Coder): (s: seq<Byte>)
    ensures forall i :: 0 <= i < |s| ==> IsTreeChar(s[i])
  {
    SerializeNode(c.root)
  }

  /** `HuffmanTree.deserialize`: parse the root, then regenerate the codes from it. */
  function Deserialize(data: seq<Byte>): (r: Result<Coder>)
    ensures r.Ok? ==> Consistent(r.value)
    ensures r.Err? ==> r.error == BadFrequency
  {
    var t :- DeserializeTree(data);
    Ok(Coder(t, CodeTableOf(t)))
  }

  /** A freshly built coder is consistent, and its table has a code for exactly the text's symbols. */
  lemma {:induction false} FromTextTable(text: seq<Sym>)
    ensures Consistent(FromText(text))
    ensures forall s :: s in FromText(text).table <==> s in text
    ensures FromText(text).root == BuildTree(text)
  {
    BuildTreeCorrect(text);
    CodeTableIsPaths(FromText(text).root);
    forall s
      ensures s in FromText(text).table <==> s in text
    {
      assert s in LeafSyms(BuildTree(text)) <==> multiset(LeafSyms(BuildTree(text)))[s] > 0;
    }
  }

  /** The earlier constructor builds the same coder. */
  lemma {:induction false} FromTextEarlierAgrees(text: seq<Sym>)
    ensures FromTextEarlier(text) == FromText(text)
  {
    BuildEarlierAgrees(InitialNodes(text));
  }

  /** A consistent coder survives `serialize` followed by `deserialize`. */
  lemma {:induction false} SerializeRoundTrip(c: Coder)
    requires Consistent(c)
    ensures Deserialize(Serialize(c)) == Ok(c)
  {
    DeserializeSerialize(c.root);
  }

  /** Two different symbols are exactly two or more frequency-table entries. */
  lemma {:induction false} ManySymbolsEntries(text: seq<Sym>)
    ensures ManySymbols(text) <==> |Tally(text)| > 1
  {
    var ks := Keys(Tally(text));
    TallyCorrect(text);
    if ManySymbols(text) {
      var i, j :| 0 <= i < |text| && 0 <= j < |text| && text[i] != text[j];
      assert text[i] in ks by { assert multiset(ks)[text[i]] == 1; }
      assert text[j] in ks by { assert multiset(ks)[text[j]] == 1; }
      TwoMembers(ks, text[i], text[j]);
    }
    if |Tally(text)| > 1 {
      assert ks[0] != ks[1] by {
        assert forall c :: multiset(ks)[c] <= 1;
        DistinctHeads(ks);
      }
      assert ks[0] in text by { assert ks[0] in multiset(ks); }
      assert ks[1] in text by { assert ks[1] in multiset(ks); }
      var i := FirstIndex(text, ks[0]);
      var j := FirstIndex(text, ks[1]);
      assert text[i] != text[j];
    }
  }

  lemma {:induction false} TwoMembers(ks: seq<Sym>, x: Sym, y: Sym)
    requires x in ks && y in ks && x != y
    ensures |ks| > 1
  {
  }

  lemma {:induction false} DistinctHeads(ks: seq<Sym>)
    requires |ks| > 1
    requires forall c :: multiset(ks)[c] <= 1
    ensures ks[0] != ks[1]
  {
    assert ks == [ks[0], ks[1]] + ks[2..];
    assert multiset(ks)[ks[0]] <= 1;
  }

  /** With two or more symbols every symbol of the text has a non-empty code, so encoding succeeds. */
  lemma {:induction false} EncodeSucceeds(text: seq<Sym>)
    requires ManySymbols(text)
    ensures Encode(text, FromText(text).table).Ok?
    ensures |Encode(text, FromText(text).table).value| >= |text|
  {
    var c := FromText(text);
    ManySymbolsEntries(text);
    BuildTreeCorrect(text);
    FromTextTable(text);
    CodeTableIsPrefixFree(c.root);
    assert forall i :: 0 <= i < |text| ==> HasCode(c.table, text[i]);
    EncodeLength(text, c.table);
  }

  /** Every code is non-empty, so the bit string is at least as long as the text. */
  lemma {:induction false} EncodeLength(text: seq<Sym>, table: CodeTable)
    requires Encode(text, table).Ok?
    ensures |Encode(text, table).value| >= |text|
  {
    if text != [] {
      assert text == [text[0]] + text[1..];
      EncodeAppend([text[0]], text[1..], table);
      EncodeSingle(text[0], table);
      EncodeLength(text[1..], table);
    }
  }

  /**
   * A text of one repeated symbol gets a lone leaf as root and the empty
   * code, which `encodeChar` rejects: compression throws on its first symbol.
   */
  lemma {:induction false} SingleSymbolFails(text: seq<Sym>)
    requires text != [] && !ManySymbols(text)
    ensures FromText(text).root == MakeNode(Some(text[0]), |text|)
    ensures CompressedText(FromText(text), text) == Err(NoCode(text[0]))
  {
    ManySymbolsEntries(text);
    TallyCorrect(text);
    assert text[0] in Keys(Tally(text)) by {
      assert multiset(Keys(Tally(text)))[text[0]] == 1;
    }
    BuildTreeCorrect(text);
    LoneLeafHasEmptyCode(text[0], |text|);
    EncodeWithEmptyCode(text, text[0]);
  }

  /** The empty text builds no tree and compresses to no bytes; no bytes decompress to the empty text. */
  lemma {:induction false} EmptyText(c: Coder)
    ensures FromText([]) == Coder(Nil, map[])
    ensures CompressedText(FromText([]), []) == Ok([])
    ensures DecompressBytes(c, []) == Ok([])
  {
  }

  /** The encoded bit string of a text with its own coder fills whole bytes. */
  predicate WholeBytes(text: seq<Sym>) {
    Encode(text, FromText(text).table).Ok? && |Encode(text, FromText(text).table).value| % 8 == 0
  }

  /**
   * When the bit string fills whole bytes, decompressing the compressed
   * bytes with the same coder gives back the text.
   */
  lemma {:induction false} CodecRoundTrip(text: seq<Sym>)
    requires ManySymbols(text) && WholeBytes(text)
    ensures CompressedText(FromText(text), text).Ok?
    ensures DecompressBytes(FromText(text), CompressedText(FromText(text), text).value) == Ok(text)
  {
    var c := FromText(text);
    EncodeSucceeds(text);
    var bits := Encode(text, c.table).value;
    UnpackPack(bits);
    FromTextTable(text);
    DecodeInvertsEncode(c.root, text);
  }

  /**
   * Otherwise the last, short group of k bits comes back behind 8 - k
   * zeros: the walk reads a different bit string than was written.
   */
  lemma {:induction false} CodecPadding(text: seq<Sym>)
    requires ManySymbols(text)
    requires Encode(text, FromText(text).table).Ok? && |Encode(text, FromText(text).table).value| % 8 != 0
    ensures CompressedText(FromText(text), text).Ok?
    ensures var bits := Encode(text, FromText(text).table).value;
            DecompressBytes(FromText(text), CompressedText(FromText(text), text).value)
              == Decode(BuildTree(text), Padded(bits))
  {
    EncodeSucceeds(text);
    var bits := Encode(text, FromText(text).table).value;
    UnpackPack(bits);
    FromTextTable(text);
  }
}

=== FILE: nodes.dfy ===
/** The Huffman tree node record (`HuffmanNode`), both revisions. */
module Nodes {
  import opened Basics

  /**
   * `HuffmanNode | null`. The record does not tie `ch` to the presence of
   * children: every combination is a value, and the shape built trees have is
   * the separate predicate `Full`.
   */
  datatype Tree = Nil | Node(ch: Option<Sym>, freq: nat, left: Tree, right: Tree)

  /** The current constructor: children are optional and default to null. */
  function MakeNode(ch: Option<Sym>, freq: nat, left: Tree := Nil, right: Tree := Nil): (n: Tree)
    ensures n.Node? && n.ch == ch && n.freq == freq
    ensures n.left == left && n.right == right
  {
    Node(ch, freq, left, right)
  }

  /** The earlier constructor takes only the symbol and the frequency. */
  function MakeNodeEarlier(ch: Option<Sym>, freq: nat): (n: Tree)
    ensures n.Node? && n.ch == ch && n.freq == freq
    ensures n.left == Nil && n.right == Nil
  {
    Node(ch, freq, Nil, Nil)
  }

  /** The earlier revision's `node.left = l; node.right = r`. */
  function SetChildren(n: Tree, l: Tree, r: Tree): (m: Tree)
    requires n.Node?
    ensures m.Node? && m.ch == n.ch && m.freq == n.freq && m.left == l && m.right == r
  {
    n.(left := l, right := r)
  }

  /** Building a parent the earlier way, then assigning children, gives the node the current constructor builds. */
  lemma {:induction false} EarlierConstructionAgrees(ch: Option<Sym>, freq: nat, l: Tree, r: Tree)
    ensures SetChildren(MakeNodeEarlier(ch, freq), l, r) == MakeNode(ch, freq, l, r)
    ensures MakeNodeEarlier(ch, freq) == MakeNode(ch, freq)
  {
  }

  /** The comparator key `node.frequency`; a null entry never reaches the sort. */
  function Weight(t: Tree): nat {
    if t.Node? then t.freq else 0
  }

  /**
   * `if (node.char)`: a symbol is a one-unit string, which is always truthy,
   * so a node is a leaf exactly when it carries a symbol.
   */
  predicate IsLeaf(t: Tree) {
    t.Node? && t.ch.Some?
  }

  /** Child selected by one bit: `0` is left, `1` is right. */
  function Child(t: Tree, b: Bit): Tree
    requires t.Node?
  {
    if b == 0 then t.left else t.right
  }

  /** A strict binary tree: leaves carry a symbol and no children, internal nodes no symbol and two children. */
  predicate Full(t: Tree) {
    t.Node? &&
    if t.ch.Some? then t.left == Nil && t.right == Nil
    else Full(t.left) && Full(t.right)
  }

  /** The symbols a depth-first walk that stops at symbol-carrying nodes meets, left to right. */
  function LeafSyms(t: Tree): seq<Sym> {
    match t
    case Nil => []
    case Node(Some(c), _, _, _) => [c]
    case Node(None, _, l, r) => LeafSyms(l) + LeafSyms(r)
  }

  /** The leaf symbols of a list of trees, in list order. */
  function Flatten(ts: seq<Tree>): seq<Sym> {
    if ts == [] then [] else LeafSyms(ts[0]) + Flatten(ts[1..])
  }

  lemma {:induction false} FlattenAppend(a: seq<Tree>, b: seq<Tree>)
    ensures Flatten(a + b) == Flatten(a) + Flatten(b)
    decreases |a|
  {
    if a == [] {
      assert a + b == b;
    } else {
      assert (a + b)[1..] == a[1..] + b;
      FlattenAppend(a[1..], b);
    }
  }

  /** The record admits shapes no builder produces: a leaf with a child, an internal node with one child. */
  lemma {:induction false} ShapeNotEnforced(c: Sym, f: nat)
    ensures !Full(MakeNode(Some(c), f, MakeNode(None, 0)))
    ensures !Full(MakeNode(None, f, MakeNode(Some(c), f)))
    ensures Full(MakeNode(None, f, MakeNode(Some(c), f), MakeNode(Some(c), f)))
  {
  }
}

=== FILE: prefix_codes.dfy ===
/** `generatePrefixCodes`: the symbol-to-bit-string table derived from a tree. */
module PrefixCodes {
  import opened Basics
  import opened Nodes

  /** `Map<string, string>` from a symbol to its `"0"`/`"1"` code. */
  type CodeTable = map<Sym, seq<Bit>>

  /**
   * `path` leads from `t` through symbol-less nodes to a node carrying `c`:
   * the route the depth-first walk takes to record `c`.
   */
  predicate Reaches(t: Tree, path: seq<Bit>, c: Sym)
    decreases |path|
  {
    t.Node? &&
    if path == [] then t.ch == Some(c)
    else t.ch == None && Reaches(Child(t, path[0]), path[1..], c)
  }

  /**
   * The walk from `t` with the code so far `prefix`, adding entries to
   * `table`; a later leaf with the same symbol overwrites (`Map.set`).
   */
  function Codes(t: Tree, prefix: seq<Bit>, table: CodeTable): CodeTable {
    match t
    case Nil => table
    case Node(Some(c), _, _, _) => table[c := prefix]
    case Node(None, _, l, r) => Codes(r, prefix + [1], Codes(l, prefix + [0], table))
  }

  /** The walk adds exactly the symbols it meets and leaves other entries alone. */
  lemma {:induction false} CodesKeys(t: Tree, prefix: seq<Bit>, table: CodeTable)
    ensures forall c :: c in Codes(t, prefix, table) <==> c in table || c in LeafSyms(t)
    ensures forall c :: c in table && c !in LeafSyms(t) ==> Codes(t, prefix, table)[c] == table[c]
  {
    if t.Node? && t.ch == None {
      CodesKeys(t.left, prefix + [0], table);
      CodesKeys(t.right, prefix + [1], Codes(t.left, prefix + [0], table));
    }
  }

  /** Every symbol the walk meets is recorded with `prefix` followed by its path from `t`. */
  lemma {:induction false} CodesPaths(t: Tree, prefix: seq<Bit>, table: CodeTable)
    ensures forall c :: c in LeafSyms(t) ==>
      c in Codes(t, prefix, table) &&
      prefix <= Codes(t, prefix, table)[c] &&
      Reaches(t, Codes(t, prefix, table)[c][|prefix|..], c)
  {
    CodesKeys(t, prefix, table);
    if t.Node? && t.ch == None {
      var l, rt := t.left, t.right;
      var inner := Codes(l, prefix + [0], table);
      var r := Codes(rt, prefix + [1], inner);
      CodesPaths(l, prefix + [0], table);
      CodesPaths(rt, prefix + [1], inner);
      CodesKeys(rt, prefix + [1], inner);
      forall c | c in LeafSyms(t)
        ensures prefix <= r[c] && Reaches(t, r[c][|prefix|..], c)
      {
        var b: Bit := if c in LeafSyms(rt) then 1 else 0;
        var p := prefix + [b];
        assert p <= r[c];
        ReachesStep(t, b, r[c][|prefix|..], c);
      }
    }
  }

  lemma {:induction false} ReachesStep(t: Tree, b: Bit, q: seq<Bit>, c: Sym)
    requires t.Node? && t.ch == None
    requires q != [] && q[0] == b
    requires Reaches(Child(t, b), q[1..], c)
    ensures Reaches(t, q, c)
  {
  }

  /** The table the current and earlier revisions build: the walk from the root with an empty prefix. */
  function CodeTableOf(t: Tree): CodeTable {
    Codes(t, [], map[])
  }

  /**
   * The table has an entry exactly for the symbols the walk meets, and each
   * entry is a root-to-node path (`0` left, `1` right) to a node carrying that
   * symbol, passing only through symbol-less nodes.
   */
  lemma {:induction false} CodeTableIsPaths(t: Tree)
    ensures forall c :: c in CodeTableOf(t) <==> c in LeafSyms(t)
    ensures forall c :: c in CodeTableOf(t) ==> Reaches(t, CodeTableOf(t)[c], c)
  {
    var r := CodeTableOf(t);
    CodesKeys(t, [], map[]);
    CodesPaths(t, [], map[]);
    forall c | c in r
      ensures Reaches(t, r[c], c)
    {
      assert r[c][0..] == r[c];
    }
  }

  /** Two paths to symbol-carrying nodes, one a prefix of the other, are the same path. */
  lemma {:induction false} ReachesPrefixFree(t: Tree, p: seq<Bit>, q: seq<Bit>, c: Sym, d: Sym)
    requires Reaches(t, p, c) && Reaches(t, q, d)
    requires p <= q
    ensures p == q && c == d
    decreases |p|
  {
    if p != [] {
      assert p[0] == q[0];
      assert p[1..] <= q[1..];
      ReachesPrefixFree(Child(t, p[0]), p[1..], q[1..], c, d);
      assert p == [p[0]] + p[1..];
      assert q == [q[0]] + q[1..];
    }
  }

  /**
   * For a tree whose root carries no symbol (two or more leaves), every code
   * is non-empty and no code is a prefix of another symbol's code.
   */
  lemma {:induction false} CodeTableIsPrefixFree(t: Tree)
    requires t.Node? && t.ch == None
    ensures forall c :: c in CodeTableOf(t) ==> |CodeTableOf(t)[c]| > 0
    ensures forall c, d :: c in CodeTableOf(t) && d in CodeTableOf(t) && c != d ==>
      !(CodeTableOf(t)[c] <= CodeTableOf(t)[d])
  {
    var r := CodeTableOf(t);
    CodeTableIsPaths(t);
    forall c, d | c in r && d in r && r[c] <= r[d]
      ensures c == d
    {
      ReachesPrefixFree(t, r[c], r[d], c, d);
    }
  }

  /** A lone leaf as the root gets the empty code. */
  lemma {:induction false} LoneLeafHasEmptyCode(c: Sym, f: nat)
    ensures CodeTableOf(MakeNode(Some(c), f)) == map[c := []]
  {
  }
}

=== FILE: stable_sort.dfy ===
/**
 * The `nodes.sort((a, b) => a.frequency - b.frequency)` step. JavaScript's
 * `Array.prototype.sort` is stable, and a stable sort by a key is unique
 * (`StableSortIsUnique`), so one fixed stable sort, insertion sort, fixes
 * the tree shape.
 */
module StableSort {
  import opened Nodes

  predicate Sorted(s: seq<Tree>) {
    forall i, j :: 0 <= i < j < |s| ==> Weight(s[i]) <= Weight(s[j])
  }

  /** The elements of `s` with weight `k`, in their order in `s`. */
  function Filter(s: seq<Tree>, k: int): seq<Tree> {
    if s == [] then []
    else (if Weight(s[0]) == k then [s[0]] else []) + Filter(s[1..], k)
  }

  lemma {:induction false} FilterCons(x: Tree, s: seq<Tree>, k: int)
    ensures Filter([x] + s, k) == (if Weight(x) == k then [x] else []) + Filter(s, k)
  {
    assert ([x] + s)[0] == x;
    assert ([x] + s)[1..] == s;
  }

  /** A stable permutation of `s`: each weight class keeps its order. */
  ghost predicate StablePermutation(r: seq<Tree>, s: seq<Tree>) {
    forall k :: Filter(r, k) == Filter(s, k)
  }

  /** Places `x` before the first element at least as heavy, behind every lighter one. */
  function Insert(x: Tree, ys: seq<Tree>): (r: seq<Tree>)
    ensures |r| == |ys| + 1
  {
    if ys == [] || Weight(x) <= Weight(ys[0]) then [x] + ys
    else [ys[0]] + Insert(x, ys[1..])
  }

  lemma {:induction false} InsertPermutes(x: Tree, ys: seq<Tree>)
    ensures multiset(Insert(x, ys)) == multiset(ys) + multiset{x}
  {
    if !(ys == [] || Weight(x) <= Weight(ys[0])) {
      InsertPermutes(x, ys[1..]);
      assert ys == [ys[0]] + ys[1..];
    }
  }

  lemma {:induction false} InsertSorted(x: Tree, ys: seq<Tree>)
    requires Sorted(ys)
    ensures Sorted(Insert(x, ys))
  {
    if !(ys == [] || Weight(x) <= Weight(ys[0])) {
      var rest := Insert(x, ys[1..]);
      InsertSorted(x, ys[1..]);
      InsertBound(x, ys[1..], Weight(ys[0]));
      SortedCons(ys[0], rest);
    }
  }

  /** Inserting keeps a lower bound on every weight. */
  lemma {:induction false} InsertBound(x: Tree, ys: seq<Tree>, w: int)
    requires w <= Weight(x)
    requires forall i :: 0 <= i < |ys| ==> w <= Weight(ys[i])
    ensures forall i :: 0 <= i < |Insert(x, ys)| ==> w <= Weight(Insert(x, ys)[i])
  {
    if !(ys == [] || Weight(x) <= Weight(ys[0])) {
      InsertBound(x, ys[1..], w);
    }
  }

  lemma {:induction false} SortedCons(y: Tree, rest: seq<Tree>)
    requires Sorted(rest)
    requires forall i :: 0 <= i < |rest| ==> Weight(y) <= Weight(rest[i])
    ensures Sorted([y] + rest)
  {
    var s := [y] + rest;
    forall i, j | 0 <= i < j < |s|
      ensures Weight(s[i]) <= Weight(s[j])
    {
      assert s[j] == rest[j - 1];
      if i > 0 { assert s[i] == rest[i - 1]; }
    }
  }

  lemma {:induction false} InsertStable(x: Tree, ys: seq<Tree>)
    ensures StablePermutation(Insert(x, ys), [x] + ys)
  {
    if !(ys == [] || Weight(x) <= Weight(ys[0])) {
      InsertStable(x, ys[1..]);
      forall k
        ensures Filter(Insert(x, ys), k) == Filter([x] + ys, k)
      {
        InsertStableStep(x, ys, k);
      }
    }
  }

  /** Passing a lighter element: the two can never share a weight class. */
  lemma {:induction false} InsertStableStep(x: Tree, ys: seq<Tree>, k: int)
    requires ys != [] && Weight(ys[0]) < Weight(x)
    requires Filter(Insert(x, ys[1..]), k) == Filter([x] + ys[1..], k)
    ensures Filter(Insert(x, ys), k) == Filter([x] + ys, k)
  {
    var y, t := ys[0], ys[1..];
    assert ys == [y] + t;
    assert Insert(x, ys) == [y] + Insert(x, t);
    FilterCons(y, Insert(x, t), k);
    FilterCons(x, t, k);
    FilterCons(x, ys, k);
    FilterCons(y, t, k);
  }

  /** Stable insertion sort, ascending by weight. */
  function Sort(s: seq<Tree>): (r: seq<Tree>)
    ensures |r| == |s|
    ensures multiset(r) == multiset(s)
    ensures Sorted(r)
    ensures StablePermutation(r, s)
  {
    if s == [] then []
    else
      var r := Insert(s[0], Sort(s[1..]));
      assert s == [s[0]] + s[1..];
      InsertPermutes(s[0], Sort(s[1..]));
      InsertSorted(s[0], Sort(s[1..]));
      InsertStable(s[0], Sort(s[1..]));
      forall k
        ensures Filter(r, k) == Filter(s, k)
      {
        FilterCons(s[0], Sort(s[1..]), k);
        FilterCons(s[0], s[1..], k);
      }
      r
  }

  lemma {:induction false} FilterMembers(s: seq<Tree>, k: int)
    ensures forall z :: z in Filter(s, k) <==> z in s && Weight(z) == k
  {
    if s != [] {
      FilterMembers(s[1..], k);
      assert s == [s[0]] + s[1..];
    }
  }

  /**
   * Two sequences sorted by weight with the same elements in each weight
   * class, in the same order, are equal: every stable sort returns the same
   * list.
   */
  lemma {:induction false} StableSortIsUnique(a: seq<Tree>, b: seq<Tree>)
    requires Sorted(a) && Sorted(b)
    requires StablePermutation(a, b)
    ensures a == b
    decreases |a|
  {
    if a == [] || b == [] {
      EmptyStable(a, b);
    } else {
      SameHead(a, b);
      TailsStable(a, b);
      SortedTail(a);
      SortedTail(b);
      StableSortIsUnique(a[1..], b[1..]);
      assert a == [a[0]] + a[1..];
      assert b == [b[0]] + b[1..];
    }
  }

  /** Nothing is a stable permutation of the empty list but itself. */
  lemma {:induction false} EmptyStable(a: seq<Tree>, b: seq<Tree>)
    requires a == [] || b == []
    requires StablePermutation(a, b)
    ensures a == b
  {
    var s := if a == [] then b else a;
    if s != [] {
      FilterMembers(s, Weight(s[0]));
      assert Filter(a, Weight(s[0])) != Filter(b, Weight(s[0]));
    }
  }

  /** Sorted stable permutations start with the same element. */
  lemma {:induction false} SameHead(a: seq<Tree>, b: seq<Tree>)
    requires a != [] && b != []
    requires Sorted(a) && Sorted(b)
    requires StablePermutation(a, b)
    ensures a[0] == b[0]
  {
    var ka, kb := Weight(a[0]), Weight(b[0]);
    FilterMembers(a, kb);
    FilterMembers(b, ka);
    assert Filter(a, kb) == Filter(b, kb) && Filter(b, ka) == Filter(a, ka);
    assert b[0] in Filter(a, kb);
    assert a[0] in Filter(b, ka);
    assert ka == kb;
    assert Filter(a, ka)[0] == a[0] by { FilterCons(a[0], a[1..], ka); assert a == [a[0]] + a[1..]; }
    assert Filter(b, ka)[0] == b[0] by { FilterCons(b[0], b[1..], ka); assert b == [b[0]] + b[1..]; }
  }

  /** Dropping a shared head keeps the tails stable permutations of each other. */
  lemma {:induction false} TailsStable(a: seq<Tree>, b: seq<Tree>)
    requires a != [] && b != [] && a[0] == b[0]
    requires StablePermutation(a, b)
    ensures StablePermutation(a[1..], b[1..])
  {
    forall k
      ensures Filter(a[1..], k) == Filter(b[1..], k)
    {
      assert a == [a[0]] + a[1..];
      assert b == [b[0]] + b[1..];
      FilterCons(a[0], a[1..], k);
      FilterCons(b[0], b[1..], k);
      var h := if Weight(a[0]) == k then [a[0]] else [];
      assert Filter(a, k) == Filter(b, k);
      assert Filter(a[1..], k) == Filter(a, k)[|h|..];
      assert Filter(b[1..], k) == Filter(b, k)[|h|..];
    }
  }

  lemma {:induction false} SortedTail(s: seq<Tree>)
    requires s != [] && Sorted(s)
    ensures Sorted(s[1..])
  {
    forall i, j | 0 <= i < j < |s| - 1
      ensures Weight(s[1..][i]) <= Weight(s[1..][j])
    {
      assert s[1..][i] == s[i + 1] && s[1..][j] == s[j + 1];
    }
  }

  /** Any stable ascending sort of `s` returns `Sort(s)`. */
  lemma {:induction false} SortIsTheStableSort(s: seq<Tree>, r: seq<Tree>)
    requires Sorted(r) && StablePermutation(r, s)
    ensures r == Sort(s)
  {
    StableSortIsUnique(r, Sort(s));
  }
}

=== FILE: tree_builder.dfy ===
/** `buildHuffmanTree`: repeated stable sort and merge of the two lightest nodes. */
module TreeBuilder {
  import opened Basics
  import opened Nodes
  import opened StableSort
  import opened Frequencies

  function SumWeights(ns: seq<Tree>): nat {
    if ns == [] then 0 else Weight(ns[0]) + SumWeights(ns[1..])
  }

  lemma {:induction false} SumWeightsAppend(a: seq<Tree>, b: seq<Tree>)
    ensures SumWeights(a + b) == SumWeights(a) + SumWeights(b)
    decreases |a|
  {
    if a == [] {
      assert a + b == b;
    } else {
      assert (a + b)[1..] == a[1..] + b;
      SumWeightsAppend(a[1..], b);
    }
  }

  lemma {:induction false} InsertSums(x: Tree, ys: seq<Tree>)
    ensures SumWeights(Insert(x, ys)) == Weight(x) + SumWeights(ys)
    ensures multiset(Flatten(Insert(x, ys))) == multiset(LeafSyms(x)) + multiset(Flatten(ys))
  {
    if !(ys == [] || Weight(x) <= Weight(ys[0])) {
      InsertSums(x, ys[1..]);
      assert Insert(x, ys)[1..] == Insert(x, ys[1..]);
    }
  }

  /** Sorting keeps the total weight and the leaf symbols of the list. */
  lemma {:induction false} SortSums(s: seq<Tree>)
    ensures SumWeights(Sort(s)) == SumWeights(s)
    ensures multiset(Flatten(Sort(s))) == multiset(Flatten(s))
  {
    if s != [] {
      SortSums(s[1..]);
      InsertSums(s[0], Sort(s[1..]));
    }
  }

  /** The parent node pushed by one loop iteration: `left` is the lighter child. */
  function Parent(left: Tree, right: Tree): Tree {
    MakeNode(None, Weight(left) + Weight(right), left, right)
  }

  /**
   * One iteration of the `while (nodes.length > 1)` loop: sort, shift off the
   * two front nodes, push their parent.
   */
  function Merge(nodes: seq<Tree>): (r: seq<Tree>)
    requires |nodes| > 1
    ensures |r| == |nodes| - 1
  {
    var s := Sort(nodes);
    s[2..] + [Parent(s[0], s[1])]
  }

  /**
   * What one iteration does: the list shrinks by one; the pushed parent's
   * weight is the sum of its children; its children are the first two nodes
   * of the stably sorted list, in that order; the left child is no heavier than the
   * right, which is no heavier than any node left in the list; and the nodes
   * kept are the rest of the old list, in stable sorted order.
   */
  lemma {:induction false} MergeStep(nodes: seq<Tree>)
    requires |nodes| > 1
    ensures var r := Merge(nodes); var p := r[|r| - 1];
      && p.Node? && p.ch == None && p.freq == Weight(p.left) + Weight(p.right)
      && p.left == Sort(nodes)[0] && p.right == Sort(nodes)[1]
      && Weight(p.left) <= Weight(p.right)
      && (forall i :: 0 <= i < |r| - 1 ==> Weight(p.right) <= Weight(r[i]))
      && multiset(r[..|r| - 1]) + multiset{p.left, p.right} == multiset(nodes)
      && r[..|r| - 1] == Sort(nodes)[2..]
  {
    var s := Sort(nodes);
    var r := Merge(nodes);
    assert s == [s[0], s[1]] + s[2..];
    assert r[..|r| - 1] == s[2..];
    forall i | 0 <= i < |r| - 1
      ensures Weight(s[1]) <= Weight(r[i])
    {
      assert r[i] == s[i + 2];
    }
  }

  lemma {:induction false} PairSums(a: Tree, b: Tree)
    ensures SumWeights([a, b]) == Weight(a) + Weight(b)
    ensures Flatten([a, b]) == LeafSyms(a) + LeafSyms(b)
  {
    assert [a, b][1..] == [b];
    assert [b][1..] == [];
    assert SumWeights([b]) == Weight(b);
    assert Flatten([b]) == LeafSyms(b) + [] == LeafSyms(b);
  }

  lemma {:induction false} ReplaceSum(a: Tree, b: Tree, rest: seq<Tree>)
    ensures SumWeights(rest + [Parent(a, b)]) == SumWeights([a, b] + rest)
  {
    PairSums(a, b);
    SumWeightsAppend([a, b], rest);
    SumWeightsAppend(rest, [Parent(a, b)]);
    assert SumWeights([Parent(a, b)]) == Weight(Parent(a, b));
  }

  lemma {:induction false} ReplaceLeaves(a: Tree, b: Tree, rest: seq<Tree>)
    ensures multiset(Flatten(rest + [Parent(a, b)])) == multiset(Flatten([a, b] + rest))
  {
    var p := Parent(a, b);
    PairSums(a, b);
    FlattenAppend([a, b], rest);
    FlattenAppend(rest, [p]);
    assert Flatten([p]) == LeafSyms(p) + [];
    assert LeafSyms(p) == LeafSyms(a) + LeafSyms(b);
  }

  lemma {:induction false} ReplaceFrontPair(s: seq<Tree>)
    requires |s| > 1
    ensures SumWeights(s[2..] + [Parent(s[0], s[1])]) == SumWeights(s)
    ensures multiset(Flatten(s[2..] + [Parent(s[0], s[1])])) == multiset(Flatten(s))
  {
    assert s == [s[0], s[1]] + s[2..];
    ReplaceSum(s[0], s[1], s[2..]);
    ReplaceLeaves(s[0], s[1], s[2..]);
  }

  /** One iteration keeps the total weight and the leaf symbols of the list. */
  lemma {:induction false} MergeKeeps(nodes: seq<Tree>)
    requires |nodes| > 1
    ensures SumWeights(Merge(nodes)) == SumWeights(nodes)
    ensures multiset(Flatten(Merge(nodes))) == multiset(Flatten(nodes))
  {
    SortSums(nodes);
    ReplaceFrontPair(Sort(nodes));
  }

  /** `buildHuffmanTree`: merge until one node is left; `nodes[0] || null`. */
  function Build(nodes: seq<Tree>): Tree
    decreases |nodes|
  {
    if |nodes| == 0 then Nil
    else if |nodes| == 1 then nodes[0]
    else Build(Merge(nodes))
  }

  /**
   * The shape and weights of a tree built from `text`: full, every leaf
   * weighted by its symbol's count, every internal node by the sum of its
   * children.
   */
  ghost predicate WellBuilt(t: Tree, text: seq<Sym>) {
    match t
    case Nil => false
    case Node(Some(c), f, l, r) => l == Nil && r == Nil && f == Occ(text, c)
    case Node(None, f, l, r) =>
      && f == Weight(l) + Weight(r)
      && WellBuilt(l, text) && WellBuilt(r, text)
  }

  lemma {:induction false} WellBuiltIsFull(t: Tree, text: seq<Sym>)
    requires WellBuilt(t, text)
    ensures Full(t)
  {
    if t.ch.None? {
      WellBuiltIsFull(t.left, text);
      WellBuiltIsFull(t.right, text);
    }
  }

  /** The loop keeps every node well built, the total weight and the leaf symbols. */
  lemma {:induction false} BuildKeeps(nodes: seq<Tree>, text: seq<Sym>)
    requires |nodes| > 0
    requires forall t :: t in nodes ==> WellBuilt(t, text)
    ensures WellBuilt(Build(nodes), text)
    ensures Weight(Build(nodes)) == SumWeights(nodes)
    ensures multiset(LeafSyms(Build(nodes))) == multiset(Flatten(nodes))
    ensures |nodes| > 1 ==> Build(nodes).ch == None
  {
    BuildWellBuilt(nodes, text);
    BuildWeight(nodes);
    BuildLeaves(nodes);
    if |nodes| > 1 {
      BuildRoot(nodes);
    }
  }

  /** Every node the loop leaves behind is well built. */
  lemma {:induction false} BuildWellBuilt(nodes: seq<Tree>, text: seq<Sym>)
    requires |nodes| > 0
    requires forall t :: t in nodes ==> WellBuilt(t, text)
    ensures WellBuilt(Build(nodes), text)
    decreases |nodes|
  {
    if |nodes| == 1 {
      assert nodes[0] in nodes;
    } else {
      MergeWellBuilt(nodes, text);
      BuildWellBuilt(Merge(nodes), text);
    }
  }

  /** The built root weighs the total of the list. */
  lemma {:induction false} BuildWeight(nodes: seq<Tree>)
    requires |nodes| > 0
    ensures Weight(Build(nodes)) == SumWeights(nodes)
    decreases |nodes|
  {
    if |nodes| == 1 {
      assert nodes == [nodes[0]];
      assert SumWeights(nodes) == Weight(nodes[0]) + SumWeights([]);
    } else {
      MergeKeeps(nodes);
      BuildWeight(Merge(nodes));
    }
  }

  /** The built tree carries the leaf symbols of the whole list. */
  lemma {:induction false} BuildLeaves(nodes: seq<Tree>)
    requires |nodes| > 0
    ensures multiset(LeafSyms(Build(nodes))) == multiset(Flatten(nodes))
    decreases |nodes|
  {
    if |nodes| == 1 {
      assert nodes == [nodes[0]];
      assert Flatten(nodes) == LeafSyms(nodes[0]) + Flatten([]);
    } else {
      MergeKeeps(nodes);
      BuildLeaves(Merge(nodes));
    }
  }

  /** Two or more nodes end in a merged, symbol-less root. */
  lemma {:induction false} BuildRoot(nodes: seq<Tree>)
    requires |nodes| > 1
    ensures Build(nodes).Node? && Build(nodes).ch == None
    decreases |nodes|
  {
    var r := Merge(nodes);
    if |r| == 1 {
      var s := Sort(nodes);
      assert r == s[2..] + [Parent(s[0], s[1])];
      assert r[0] == Parent(s[0], s[1]);
      assert Build(r) == r[0];
    } else {
      BuildRoot(r);
    }
  }

  lemma {:induction false} MergeWellBuilt(nodes: seq<Tree>, text: seq<Sym>)
    requires |nodes| > 1
    requires forall t :: t in nodes ==> WellBuilt(t, text)
    ensures forall t :: t in Merge(nodes) ==> WellBuilt(t, text)
  {
    var r := Merge(nodes);
    var p := r[|r| - 1];
    MergeStep(nodes);
    var m := multiset(r[..|r| - 1]) + multiset{p.left, p.right};
    assert p.left in m && p.right in m;
    forall t | t in r
      ensures WellBuilt(t, text)
    {
      if t != p {
        var i :| 0 <= i < |r| && r[i] == t;
        assert t in r[..|r| - 1];
        assert t in m;
      }
    }
  }

  /** The tree the current revision builds for `text` (`createNodes` then `buildHuffmanTree`). */
  function BuildTree(text: seq<Sym>): Tree {
    Build(InitialNodes(text))
  }

  /**
   * The built tree: null for the empty text; otherwise full, weighted by the
   * counts, rooted at the text length, with every symbol of the text on
   * exactly one leaf and no other leaves. One distinct symbol gives a lone
   * leaf as the root; two or more give an internal root.
   */
  lemma {:induction false} BuildTreeCorrect(text: seq<Sym>)
    ensures text == [] ==> BuildTree(text) == Nil
    ensures text != [] ==> WellBuilt(BuildTree(text), text) && Full(BuildTree(text))
    ensures text != [] ==> Weight(BuildTree(text)) == |text|
    ensures forall c :: multiset(LeafSyms(BuildTree(text)))[c] == (if c in text then 1 else 0)
    ensures |Tally(text)| == 1 ==> BuildTree(text) == MakeNode(Some(text[0]), |text|)
    ensures |Tally(text)| > 1 ==> BuildTree(text).Node? && BuildTree(text).ch == None
  {
    var ns := InitialNodes(text);
    InitialNodesCorrect(text);
    if text != [] {
      BuildKeeps(ns, text);
      WellBuiltIsFull(BuildTree(text), text);
      TallyCorrect(text);
      LeavesWeight(Tally(text));
      if |ns| == 1 {
        var t := ns[0];
        assert t in ns;
        assert multiset(Flatten(ns)) == multiset(LeafSyms(t)) by {
          assert ns == [t];
          assert Flatten(ns) == LeafSyms(t);
        }
        assert text[0] in multiset(LeafSyms(t));
        assert t.ch.value == text[0];
        assert Occ(text, text[0]) == |text| by {
          assert forall c :: c in text ==> c == text[0] by {
            forall c | c in text ensures c == text[0] {
              assert c in multiset(LeafSyms(t));
            }
          }
          SameSymbolOcc(text);
        }
      }
    }
  }

  lemma {:induction false} LeavesWeight(es: seq<Entry>)
    ensures SumWeights(Leaves(es)) == SumCounts(es)
    decreases |es|
  {
    if es != [] {
      assert Leaves(es)[1..] == Leaves(es[1..]);
      LeavesWeight(es[1..]);
    }
  }

  lemma {:induction false} SameSymbolOcc(text: seq<Sym>)
    requires text != []
    requires forall c :: c in text ==> c == text[0]
    ensures Occ(text, text[0]) == |text|
    decreases |text|
  {
    if |text| > 1 {
      assert text == [text[0]] + text[1..];
      assert text[1] in text;
      assert forall c :: c in text[1..] ==> c in text;
      assert text[1..][0] == text[0];
      SameSymbolOcc(text[1..]);
    }
  }

  /** The earlier revision's loop body, with its `if (left && right)` guard. */
  function MergeEarlier(nodes: seq<Tree>): seq<Tree> {
    var s := Sort(nodes);
    var left := if |s| > 0 then Some(s[0]) else None;
    var right := if |s| > 1 then Some(s[1]) else None;
    var rest := s[Min(2, |s|)..];
    if left.Some? && right.Some? then rest + [Parent(left.value, right.value)] else rest
  }

  /** The earlier revision's `buildHuffmanTree`, returning `nodes[0]`. */
  function BuildEarlier(nodes: seq<Tree>): Tree
    decreases |nodes|
  {
    if |nodes| == 0 then Nil
    else if |nodes| == 1 then nodes[0]
    else
      var r := MergeEarlier(nodes);
      if |r| < |nodes| then BuildEarlier(r) else Nil
  }

  /**
   * Inside the loop the list has at least two nodes, so the guard always
   * holds and the earlier loop builds the same tree as the current one.
   */
  lemma {:induction false} BuildEarlierAgrees(nodes: seq<Tree>)
    ensures |nodes| > 1 ==> MergeEarlier(nodes) == Merge(nodes)
    ensures BuildEarlier(nodes) == Build(nodes)
    decreases |nodes|
  {
    if |nodes| > 1 {
      assert MergeEarlier(nodes) == Merge(nodes);
      BuildEarlierAgrees(Merge(nodes));
    }
  }
}

=== FILE: tree_serializer.dfy ===
/**
 * `serialize`/`deserialize`: the pre-order text `code,freq,left,right` with
 * `#` for a symbol-less node and `null` for an absent child, and the matching
 * recursive-descent parse. The text holds only ASCII characters, so its
 * `TextEncoder` bytes are its characters; it is handled as bytes here.
 */
module TreeSerializer {
  import opened Basics
  import opened Nodes

  /** A comma-separated field, as the parser reads it. */
  datatype Token = Num(n: nat) | Hash | NullTok | Junk

  const Comma: Byte := 44
  const HashChar: Byte := 35
  const NullText: seq<Byte> := [110, 117, 108, 108]

  predicate IsDigit(b: Byte) {
    48 <= b <= 57
  }

  /** The characters a serialized tree is made of: digits, `,`, `#` and the letters of `null`. */
  predicate IsTreeChar(b: Byte) {
    IsDigit(b) || b == Comma || b == HashChar || b == 110 || b == 117 || b == 108
  }

  predicate AllDigits(s: seq<Byte>) {
    forall i :: 0 <= i < |s| ==> IsDigit(s[i])
  }

  /** `${n}` for a non-negative integer: decimal digits, no leading zeros. */
  function Decimal(n: nat): (s: seq<Byte>)
    ensures |s| >= 1 && AllDigits(s)
  {
    if n < 10 then [48 + n] else Decimal(n / 10) + [48 + n % 10]
  }

  /** `parseInt(s, 10)` on a string of decimal digits. */
  function DigitsValue(s: seq<Byte>): nat
    requires AllDigits(s)
  {
    if s == [] then 0 else 10 * DigitsValue(s[..|s| - 1]) + (s[|s| - 1] - 48)
  }

  lemma {:induction false} DecimalValue(n: nat)
    ensures DigitsValue(Decimal(n)) == n
    decreases n
  {
    if n >= 10 {
      DecimalValue(n / 10);
      var s := Decimal(n);
      assert s[..|s| - 1] == Decimal(n / 10);
    }
  }

  /** What the parser makes of one field of the split text. */
  function Classify(field: seq<Byte>): Token {
    if field == NullText then NullTok
    else if field == [HashChar] then Hash
    else if |field| > 0 && AllDigits(field) then Num(DigitsValue(field))
    else Junk
  }

  /** `node.char ? node.char.charCodeAt(0) : "#"`. */
  function SymField(ch: Option<Sym>): seq<Byte> {
    if ch.Some? then Decimal(ch.value) else [HashChar]
  }

  /** `serializeNode`: `null`, or `${char},${frequency},${left},${right}`. */
  function SerializeNode(t: Tree): (s: seq<Byte>)
    ensures forall i :: 0 <= i < |s| ==> IsTreeChar(s[i])
  {
    match t
    case Nil => NullText
    case Node(ch, f, l, r) =>
      SymField(ch) + [Comma] + Decimal(f) + [Comma] + SerializeNode(l) + [Comma] + SerializeNode(r)
  }

  /** `data.split(",")`: the fields between commas; no comma gives one field. */
  function Split(s: seq<Byte>): (fields: seq<seq<Byte>>)
    ensures |fields| >= 1
    decreases |s|
  {
    if Comma !in s then [s]
    else
      var i := FirstIndex(s, Comma);
      [s[..i]] + Split(s[i + 1..])
  }

  /** Splitting at the first comma: the text before it, and the fields after it. */
  lemma {:induction false} SplitJoin(a: seq<Byte>, b: seq<Byte>)
    ensures Split(a + [Comma] + b) == Split(a) + Split(b)
    decreases |a|
  {
    if Comma !in a {
      SplitJoinHere(a, b);
    } else {
      var j := FirstIndex(a, Comma);
      SplitJoin(a[j + 1..], b);
      SplitJoinLater(a, b);
    }
  }

  lemma {:induction false} SplitJoinHere(a: seq<Byte>, b: seq<Byte>)
    requires Comma !in a
    ensures Split(a + [Comma] + b) == Split(a) + Split(b)
  {
    var s := a + [Comma] + b;
    CommaAtJoin(a, b);
    assert s[..|a|] == a;
    assert s[|a| + 1..] == b;
    SplitAt(s, |a|);
  }

  lemma {:induction false} SplitJoinLater(a: seq<Byte>, b: seq<Byte>)
    requires Comma in a
    requires var j := FirstIndex(a, Comma);
      Split(a[j + 1..] + [Comma] + b) == Split(a[j + 1..]) + Split(b)
    ensures Split(a + [Comma] + b) == Split(a) + Split(b)
  {
    var j := FirstIndex(a, Comma);
    FirstFieldOfJoin(a, b);
    SplitAt(a, j);
    Reassoc(a[..j], Split(a[j + 1..]), Split(b));
  }

  lemma {:induction false} Reassoc(h: seq<Byte>, x: seq<seq<Byte>>, y: seq<seq<Byte>>)
    ensures [h] + (x + y) == ([h] + x) + y
  {
  }

  /** With a comma in `a`, `a , b` splits first where `a` does. */
  lemma {:induction false} FirstFieldOfJoin(a: seq<Byte>, b: seq<Byte>)
    requires Comma in a
    ensures var j := FirstIndex(a, Comma);
      Split(a + [Comma] + b) == [a[..j]] + Split(a[j + 1..] + [Comma] + b)
  {
    var s := a + [Comma] + b;
    var j := FirstIndex(a, Comma);
    CommaInFront(a, b);
    assert s[..j] == a[..j];
    assert s[j + 1..] == a[j + 1..] + [Comma] + b;
    SplitAt(s, j);
  }

  /** Splitting cuts at the first comma. */
  lemma {:induction false} SplitAt(s: seq<Byte>, i: nat)
    requires i < |s| && i == FirstIndex(s, Comma)
    ensures Split(s) == [s[..i]] + Split(s[i + 1..])
  {
  }

  /** With no comma in `a`, the first comma of `a , b` is the joining one. */
  lemma {:induction false} CommaAtJoin(a: seq<Byte>, b: seq<Byte>)
    requires Comma !in a
    ensures FirstIndex(a + [Comma] + b, Comma) == |a|
  {
    var s := a + [Comma] + b;
    assert s[|a|] == Comma;
    var i := FirstIndex(s, Comma);
    if i > |a| { FirstIndexIsFirst(s, Comma, |a|); }
  }

  /** With a comma in `a`, the first comma of `a , b` is the first comma of `a`. */
  lemma {:induction false} CommaInFront(a: seq<Byte>, b: seq<Byte>)
    requires Comma in a
    ensures FirstIndex(a + [Comma] + b, Comma) == FirstIndex(a, Comma)
  {
    var s := a + [Comma] + b;
    var i := FirstIndex(s, Comma);
    var j := FirstIndex(a, Comma);
    assert s[j] == Comma;
    if i < j {
      assert a[i] == s[i];
      FirstIndexIsFirst(a, Comma, i);
    }
    if i > j { FirstIndexIsFirst(s, Comma, j); }
  }

  lemma {:induction false} FirstIndexIsFirst(s: seq<Byte>, c: Byte, i: nat)
    requires i < FirstIndex(s, c)
    ensures s[i] != c
    decreases |s|
  {
    if i > 0 {
      FirstIndexIsFirst(s[1..], c, i - 1);
    }
  }

  /** The tokens of a split text. */
  function Tokenize(s: seq<Byte>): seq<Token> {
    ClassifyAll(Split(s))
  }

  function ClassifyAll(fields: seq<seq<Byte>>): (ts: seq<Token>)
    ensures |ts| == |fields|
  {
    if fields == [] then [] else [Classify(fields[0])] + ClassifyAll(fields[1..])
  }

  lemma {:induction false} ClassifyAllAppend(a: seq<seq<Byte>>, b: seq<seq<Byte>>)
    ensures ClassifyAll(a + b) == ClassifyAll(a) + ClassifyAll(b)
    decreases |a|
  {
    if a == [] {
      assert a + b == b;
    } else {
      assert (a + b)[1..] == a[1..] + b;
      ClassifyAllAppend(a[1..], b);
    }
  }

  function SymToken(ch: Option<Sym>): Token {
    if ch.Some? then Num(ch.value) else Hash
  }

  /** The tokens `serializeNode` writes, in pre-order. */
  function Tokens(t: Tree): seq<Token> {
    match t
    case Nil => [NullTok]
    case Node(ch, f, l, r) => [SymToken(ch), Num(f)] + Tokens(l) + Tokens(r)
  }

  lemma {:induction false} FieldTokens(ch: Option<Sym>, f: nat)
    ensures Comma !in SymField(ch) && Comma !in Decimal(f) && Comma !in NullText
    ensures Classify(SymField(ch)) == SymToken(ch)
    ensures Classify(Decimal(f)) == Num(f)
    ensures Classify(NullText) == NullTok
  {
    DecimalValue(f);
    if ch.Some? {
      DecimalValue(ch.value);
      assert Decimal(ch.value)[0] != NullText[0];
    }
    assert Decimal(f)[0] != NullText[0];
  }

  /** The serialized text of a node, split, is its two own fields followed by its subtrees' fields. */
  lemma {:induction false} SplitNode(ch: Option<Sym>, f: nat, l: Tree, r: Tree)
    ensures Split(SerializeNode(Node(ch, f, l, r)))
         == [SymField(ch)] + ([Decimal(f)] + (Split(SerializeNode(l)) + Split(SerializeNode(r))))
  {
    var a, b := SymField(ch), Decimal(f);
    var sl, sr := SerializeNode(l), SerializeNode(r);
    var rest := sl + [Comma] + sr;
    assert Split(a) == [a] && Split(b) == [b] by {
      FieldTokens(ch, f);
    }
    assert SerializeNode(Node(ch, f, l, r)) == a + [Comma] + (b + [Comma] + rest);
    assert Split(b + [Comma] + rest) == [b] + Split(rest) by {
      SplitJoin(b, rest);
    }
    assert Split(rest) == Split(sl) + Split(sr) by {
      SplitJoin(sl, sr);
    }
    SplitJoin(a, b + [Comma] + rest);
  }

  /** Splitting and classifying the serialized text gives back its tokens. */
  lemma {:induction false} TokenizeSerialize(t: Tree)
    ensures Tokenize(SerializeNode(t)) == Tokens(t)
  {
    match t
    case Nil =>
      FieldTokens(None, 0);
    case Node(ch, f, l, r) =>
      TokenizeSerialize(l);
      TokenizeSerialize(r);
      TokenizeNode(ch, f, l, r);
  }

  lemma {:induction false} ClassifyNode(a: seq<Byte>, b: seq<Byte>, fl: seq<seq<Byte>>, fr: seq<seq<Byte>>)
    ensures ClassifyAll([a] + ([b] + (fl + fr))) == [Classify(a), Classify(b)] + ClassifyAll(fl) + ClassifyAll(fr)
  {
    ClassifyAllAppend(fl, fr);
    ClassifyAllAppend([b], fl + fr);
    ClassifyAllAppend([a], [b] + (fl + fr));
    assert ClassifyAll([a]) == [Classify(a)];
    assert ClassifyAll([b]) == [Classify(b)];
  }

  lemma {:induction false} TokenizeNode(ch: Option<Sym>, f: nat, l: Tree, r: Tree)
    requires Tokenize(SerializeNode(l)) == Tokens(l)
    requires Tokenize(SerializeNode(r)) == Tokens(r)
    ensures Tokenize(SerializeNode(Node(ch, f, l, r))) == Tokens(Node(ch, f, l, r))
  {
    var fl, fr := Split(SerializeNode(l)), Split(SerializeNode(r));
    SplitNode(ch, f, l, r);
    FieldTokens(ch, f);
    ClassifyNode(SymField(ch), Decimal(f), fl, fr);
  }

  /** `String.fromCharCode(parseInt(char, 10))`: a code wraps to 16 bits; a non-number becomes `"\0"`. */
  function SymOf(tok: Token): Option<Sym> {
    match tok
    case Hash => None
    case Num(n) => Some(n % 0x1_0000)
    case _ => Some(0)
  }

  /**
   * `deserializeNode`: an exhausted list or a `null` token gives null; the
   * frequency token must be a number; then the left subtree, then the right.
   * Returns the tree and the tokens left over.
   */
  function Parse(ts: seq<Token>): (r: Result<(Tree, seq<Token>)>)
    ensures r.Ok? ==> |r.value.1| <= |ts|
    ensures r.Err? ==> r.error == BadFrequency
    decreases |ts|
  {
    if ts == [] then Ok((Nil, []))
    else if ts[0] == NullTok then Ok((Nil, ts[1..]))
    else if |ts| < 2 || !ts[1].Num? then Err(BadFrequency)
    else
      var left :- Parse(ts[2..]);
      var right :- Parse(left.1);
      Ok((Node(SymOf(ts[0]), ts[1].n, left.0, right.0), right.1))
  }

  /** What a successful parse leaves over is a suffix of its input: it consumes a prefix. */
  lemma {:induction false} ParseConsumesPrefix(ts: seq<Token>)
    ensures Parse(ts).Ok? ==> Parse(ts).value.1 == ts[|ts| - |Parse(ts).value.1|..]
    decreases |ts|
  {
    if |ts| >= 2 && ts[0] != NullTok && ts[1].Num? {
      ParseConsumesPrefix(ts[2..]);
      var left := Parse(ts[2..]);
      if left.Ok? {
        ParseConsumesPrefix(left.value.1);
      }
    }
  }

  /** Parsing the tokens of any tree, followed by anything, returns that tree and leaves the rest. */
  lemma {:induction false} ParseTokens(t: Tree, extra: seq<Token>)
    ensures Parse(Tokens(t) + extra) == Ok((t, extra))
  {
    match t
    case Nil =>
      assert (Tokens(t) + extra)[1..] == extra;
    case Node(ch, f, l, r) =>
      var rest := Tokens(r) + extra;
      assert Tokens(t) + extra == [SymToken(ch), Num(f)] + (Tokens(l) + rest);
      ParseTokens(l, rest);
      ParseTokens(r, extra);
      ParseNode(ch, f, Tokens(l) + rest, l, r, rest, extra);
  }

  /** One node: its two header tokens, then a left and a right subtree in turn. */
  lemma {:induction false} ParseNode(ch: Option<Sym>, f: nat, body: seq<Token>,
                                     l: Tree, r: Tree, rest: seq<Token>, extra: seq<Token>)
    requires Parse(body) == Ok((l, rest))
    requires Parse(rest) == Ok((r, extra))
    ensures Parse([SymToken(ch), Num(f)] + body) == Ok((Node(ch, f, l, r), extra))
  {
    var ts := [SymToken(ch), Num(f)] + body;
    assert ts[0] == SymToken(ch) && ts[1] == Num(f) && ts[2..] == body;
    assert SymOf(SymToken(ch)) == ch;
    var left := Parse(ts[2..]);
    assert left == Ok((l, rest));
    var right := Parse(left.value.1);
    assert right == Ok((r, extra));
  }

  /** The parser's leniency: no tokens gives null, a bad or missing frequency throws. */
  lemma {:induction false} ParseLeniency(ts: seq<Token>)
    ensures ts == [] ==> Parse(ts) == Ok((Nil, []))
    ensures ts != [] && ts[0] == NullTok ==> Parse(ts) == Ok((Nil, ts[1..]))
    ensures ts != [] && ts[0] != NullTok && (|ts| < 2 || !ts[1].Num?) ==> Parse(ts) == Err(BadFrequency)
  {
  }

  /** `HuffmanTree.deserialize` up to the code table: split, parse, keep the root. */
  function DeserializeTree(data: seq<Byte>): Result<Tree> {
    var p :- Parse(Tokenize(data));
    Ok(p.0)
  }

  /** Every tree survives its own text. */
  lemma {:induction false} DeserializeSerialize(t: Tree)
    ensures DeserializeTree(SerializeNode(t)) == Ok(t)
  {
    TokenizeSerialize(t);
    ParseTokens(t, []);
    assert Tokens(t) + [] == Tokens(t);
  }

  /** `"null"` is the empty tree; an empty text is one empty field, which has no frequency and throws. */
  lemma {:induction false} DeserializeEdgeCases()
    ensures DeserializeTree(NullText) == Ok(Nil)
    ensures DeserializeTree([]) == Err(BadFrequency)
  {
    assert Comma !in NullText;
    assert Tokenize(NullText) == [NullTok];
    assert Tokenize([]) == [Junk];
  }
}
